=== FILE: README.md ===
# ChatVerse chat backend — a Dafny model

ChatVerse is a conversational-assistant backend. It accepts user messages over
HTTP (`POST /chat/message`) and a WebSocket (`/chat/ws`). Each message goes to
one of two session kinds: a tool-using ReAct agent (`ChatAgent`) or a plain
conversation chain (`SimpleChat`). Sessions are cached per conversation id in
a process-wide map. Every turn is saved to an in-memory conversation store
(`ChatService`), which `GET /chat/history/{id}` is meant to read. As written,
each HTTP request gets a fresh, empty store and each WebSocket connection its
own (see Findings).

This project models the decision logic around the language model, not the
model itself:

- `ChatService` (`chat_service.dfy`): the keyed, append-only store as an
  immutable map. `SaveMessage`, `GetConversationHistory` and `GetMessages`
  are pure functions.
- `Tools` (`tools.dfy`): the knowledge-base search as a pure string
  function, once as the source's loop and once as a reference definition.
  It also has the clock tool with the clock reading as an input, and the
  fixed two-tool list.
- `Llm` (`llm.dfy`): the per-model configuration table, the `max_tokens`
  default, the API-key fallback, and the key probe. The HTTP request is an
  oracle function.
- `Agents` (`agents.dfy`): the two `process_message` wrappers. What the
  LangChain executor or chain produced is an input.
- `ChatApi` (`chat_api.dfy`): the HTTP dispatcher, the history endpoint and
  the WebSocket loop. Each is a state transition over the session cache and
  a store that the caller supplies. A fresh id, whether a constructor
  raises, and what each `process_message` call yields are oracle values,
  given per message in call order (`HttpOracles`, `Calls`).
- `Server` (`server.dfy`): the two HTTP endpoints over successive requests,
  as written and as evidently intended (see Findings).
- `Text` (`text.dfy`) and `Base` (`base.dfy`): ASCII `str.lower`, substring
  membership, `sep.join` and `str.split` with their round trips, and `Option`.

Three behaviours of the code shape the model:

- Over HTTP, a failed call is retried on a `SimpleChat` only when the id is
  in the session cache at that point, whether it was cached before the
  request or the session was built by it (app/api/chat.py:220). On the
  WebSocket, a `SimpleChat` is tried whenever the current session is not one,
  cached or not (app/api/chat.py:108).
- The reasoning loop belongs to LangChain's `AgentExecutor`, and the tool
  list is a fixed two-element list with no registration step
  (app/agents/tools.py:54-67).
- On the WebSocket the user turn is saved before the session is asked
  (app/api/chat.py:78-82), and saved again when the fallback succeeds
  (app/api/chat.py:116-120). Over HTTP it is saved only once an answer
  exists (app/api/chat.py:197-206, 229-238, 254-263).

## Model

| member | source | states |
|---|---|---|
| `ChatService.SaveMessage` | app/services/chat_service.py:15-31 | An unseen id gets a history under that id holding just the new message. A seen id gets `Message(role, content)` appended after its earlier messages, which stay as they were. Every other conversation is unchanged, and every history stays filed under its own id. |
| `ChatService.GetConversationHistory` | app/services/chat_service.py:33-42 | `None` exactly for an id never saved to; otherwise the stored history. |
| `ChatService.GetMessages` | app/services/chat_service.py:44-56 | `[]` for an unknown id; otherwise the stored history's messages. |
| `ChatService.SaveMessageAppends` | app/services/chat_service.py:29-31 | Seen through `get_messages`, a save appends exactly one message to its own id and changes no other id. |
| `ChatService.SaveAllAppends` | app/services/chat_service.py:15-31 | A run of saves to one id appends its messages in call order and leaves every other id alone. |
| `ChatService.FreshHistoryHoldsExactlyTheSaves` | app/services/chat_service.py:10-31 | Starting from an empty service, n saves to one id leave exactly those n messages, in order, in a history whose id is that id. |
| `ChatService.SaveAllKeeps` | app/services/chat_service.py:23-27 | A run of saves keeps every history filed under its own id and creates the id it saves to. |
| `Text.ContainsIsSubstring` | app/agents/tools.py:39 | The executable `p in s` holds exactly when `p` occurs in `s` at some offset. |
| `Text.SplitJoin` | app/agents/tools.py:42-43 | Splitting a `\n`-join of single-line parts at `\n` gives back exactly the parts, so the join adds one separator between neighbours and none at the end. |
| `Text.JoinSplit` | app/agents/tools.py:43 | Joining the pieces of a split restores the string. |
| `Tools.HitsAreTheMatchesInOrder` | app/agents/tools.py:37-40 | The hits are exactly the knowledge-base entries whose lower-cased key contains the lower-cased query, and they keep table order. |
| `Tools.HitsIgnoreQueryCase` | app/agents/tools.py:39 | Two queries with the same lower-case form have the same hits, so matching is case-insensitive. |
| `Tools.SearchKnowledgeBase` | app/agents/tools.py:19-45 | With hits, the answer splits at line breaks into exactly the `key: value` lines of the hits, in table order. With none, it is `未找到与'<query>'相关的信息。` quoting the original query. It is never empty. |
| `Tools.SearchKnowledgeBaseLoop` | app/agents/tools.py:37-45 | The source's accumulate-then-join loop computes the same answer as the reference definition. |
| `Tools.EmptyQueryListsEverything` | app/agents/tools.py:29-43 | The empty query matches all four entries, and the answer holds all four lines in table order. |
| `Tools.DigitsRoundTrip` | app/agents/tools.py:16 | A zero-padded field reads back as the number it encodes when the number fits in the field width. |
| `Tools.FormatReadsBack` | app/agents/tools.py:16 | The `%Y-%m-%d %H:%M:%S` rendering is 19 characters long, and the whole answer parses back into the same clock reading. |
| `Tools.DateTimeReadsBack` | app/agents/tools.py:16 | The `%Y-%m-%d %H:%M:%S` rendering alone is 19 characters long and splits at its one space into a date and a time that read back as the same clock reading. |
| `Tools.GetCurrentTime` | app/agents/tools.py:9-16 | The answer is `当前时间是: ` followed by the 19-character zero-padded reading, and it parses back as the reading it was given. |
| `Tools.CreateAgentTools` | app/agents/tools.py:48-67 | Exactly two tools, with distinct names: first `get_current_time` ("获取当前时间"), then `search_knowledge_base` ("搜索知识库获取信息"); these descriptions are what the agent's prompt lists. The name `get_current_time` goes with the clock function. |
| `Tools.ToolNamesReachTheirFunctions` | app/agents/tools.py:54-65 | Looking up each registered name finds a tool whose invocation is the function it was registered with. |
| `Llm.GetModelConfig` | app/utils/llm.py:69-85 | `deepseek-chat` has `max_tokens` 4096, `supports_functions` true and default temperature 0.7. Every other name gets the empty configuration. |
| `Llm.MaxTokensByModel` | app/utils/llm.py:52-64 | The resolved token bound is 4096 for `deepseek-chat` and 1000 for any other model name. |
| `Llm.ResolveApiKey` | app/utils/llm.py:55 | A non-empty plain key is wrapped as a secret. A non-empty secret is kept. A missing or empty key falls back to the configured key, or to `None`. |
| `Llm.CheckApiKey` | app/utils/llm.py:12-37 | The probe is a GET of `<base_url>/models` carrying `Bearer <key>` (the text `None` when no key); the result is true exactly when that probe answers status 200, and an exception yields false. |
| `Llm.CreateLlm` | app/utils/llm.py:39-67 | The model name and temperature pass through unchanged. The token bound comes from the table, defaulting to 1000. The key is the resolved key and the base URL is the configured one. The warning is logged exactly when the probe of the resolved key does not answer 200. |
| `Llm.SessionClientParameters` | app/agents/chat_agent.py:20 | The sessions' `create_llm(temperature=0.7)` client is `deepseek-chat` with 4096 tokens and the configured key as a plain string. |
| `Agents.AgentProcess` | app/agents/chat_agent.py:83-105 | Returns the executor's output and steps, defaulting to `""` and `[]`. If the executor raised, returns the fixed apology with no steps. |
| `Agents.SimpleProcess` | app/agents/simple_chat.py:42-63 | Never reports thoughts. Returns the chain's response, or the fixed apology if the chain raised. |
| `ChatApi.ProcessMessage` | app/agents/chat_agent.py:92-105 | A cached session's `process_message` never raises, and a `SimpleChat` never reports thoughts. |
| `ChatApi.UseSimpleChat` | app/api/chat.py:23 | An unset variable means agent mode. Simple mode is selected exactly when the value is `true` in any mix of upper and lower case. |
| `ChatApi.ResolveConversationId` | app/api/chat.py:177 | A supplied non-empty id is used unchanged; otherwise the freshly drawn id is used. |
| `ChatApi.LookupOrCreate` | app/api/chat.py:180-191 | A cached session is reused untouched. A miss stores a session of the configured kind. A constructor that raises leaves the cache as it was. |
| `ChatApi.SaveExchange` | app/api/chat.py:197-206 | The user turn and then the assistant turn are appended to that id. The store gains at most that id as a key, and every other stored history is unchanged. |
| `ChatApi.ChatMessage` | app/api/chat.py:161-281 | Every path answers for the resolved id and saves the user turn, then an assistant turn with exactly the returned text. The store gains at most that id as a key, and every other stored history is unchanged. Only that id's cache entry can change. The text is the first reply, the retried reply, or the fallback sentence. |
| `ChatApi.HttpFallback` | app/api/chat.py:213-273 | An uncached id, or a non-`SimpleChat` session whose `SimpleChat()` replacement raises, answers the fallback sentence with the cache unchanged. Otherwise the cache holds a `SimpleChat` for the id, and the answer is the retry's reply, or the fallback sentence when the retry raises. Thoughts are empty, and user plus answer are saved. |
| `ChatApi.PrimarySuccess` | app/api/chat.py:194-212 | When the session exists or is built and its call succeeds, the reply and its thoughts are returned. They are saved after the user turn, and the cache only gains the new session. |
| `ChatApi.RetryOnCachedSession` | app/api/chat.py:180-244 | A session in the cache when its call fails, cached before the request or built by it, becomes a `SimpleChat` and is asked once more. Success returns its reply with empty thoughts; failure returns the fallback sentence. The user turn and the answer are saved. |
| `ChatApi.FailedSwitchKeepsSession` | app/api/chat.py:218-273 | When a non-`SimpleChat` session's call fails and `SimpleChat()` raises, the session stays cached unchanged, and the fallback sentence is returned and saved after the user turn. |
| `ChatApi.ConstructorFailureSkipsRetry` | app/api/chat.py:220-273 | If the constructor of a new session raises, there is no retry. The answer is the fallback sentence, the cache is unchanged, and user plus fallback turns are saved. |
| `ChatApi.NoRetryWhenSessionsNeverRaise` | app/api/chat.py:213-226 | Because sessions never raise, the cache never switches to `SimpleChat`. The fallback sentence is returned only when a constructor raised, or when the reply happens to equal it. |
| `ChatApi.ChatHistory` | app/api/chat.py:284-301 | 404 exactly for an id with no stored history; otherwise the stored history. |
| `ChatApi.ParseInbound` | app/api/chat.py:43-53 | A JSON object gives its `message` member (default `""`) and switches the id only for a non-empty `conversation_id`. Non-JSON text is the message verbatim under the current id. Any other JSON value ends the connection. |
| `ChatApi.WsHandle` | app/api/chat.py:41-60 | A frame that ends the connection sends nothing and changes nothing. Any other frame is answered under the id it selects. |
| `ChatApi.WsAnswer` | app/api/chat.py:56-153 | One thinking frame, then exactly one response or error frame, all carrying the current id, which becomes the connection's id. Error frames carry the fallback sentence, and the cache changes at most at that id. |
| `ChatApi.WsAsk` | app/api/chat.py:62-153 | A successful call leaves the cache as it is, sends a response frame with exactly the reply, and saves the user turn then the reply. A failed call runs the fallback on the store that already holds the user turn. |
| `ChatApi.WsAnswerOutcome` | app/api/chat.py:62-153 | Checked against an independent reference outcome. A response frame carries the first successful call's reply; otherwise an error frame carries the fallback sentence. The cache gains the new session, or a `SimpleChat` whenever the loop retried. The id's history gains exactly the turns listed under `WsAnswerHistory`. |
| `ChatApi.WsFallback` | app/api/chat.py:101-153 | A session that is not a `SimpleChat` and cannot be replaced gives an error frame with the fallback sentence, keeps the cache, and saves only the fallback turn. Otherwise the cache holds a `SimpleChat` for the id. A response frame is sent exactly when the retry succeeds, carrying its reply, and the user turn and reply are saved. |
| `ChatApi.WsAnswerHistory` | app/api/chat.py:77-147 | The id's history grows and ends with an assistant turn carrying the terminal frame's text, and no other history changes. The exact turns are: user then reply after a first success; the user turn (when a session existed) then user and reply after a successful retry; the user turn (when a session existed) then the fallback turn when nothing answered. |
| `ChatApi.WsRun` | app/api/chat.py:40-158 | Over a script of inbound frames: two frames per handled message, always thinking then terminal for the same id. Every handled frame was usable; the run stops early exactly at the first JSON value that is not an object, which ends the connection, and otherwise handles the whole script. How each message's cache and store reach the next is stated by `WsRunStoreGrows`, `WsRunCacheGrows`, `WsRunKeepsEarlierState` and `BuiltSessionServesTheRest`. |
| `ChatApi.PlainTextKeepsConversation` | app/api/chat.py:36-53 | A run of non-JSON messages keeps the connection's id, and every frame sent carries it. |
| `ChatApi.SwitchedIdSticks` | app/api/chat.py:48-53 | After a JSON object names a conversation, that id stays current for the plain-text messages that follow. |
| `ChatApi.CachedRun` | app/api/chat.py:38-99 | On a cached conversation whose session answers every plain-text message, the run equals a reference: it stays open on the id, leaves the cache as it was, saves each exchange in turn into the one connection store (`SaveExchanges`), and sends the reference frames (`AnsweredFrames`). |
| `ChatApi.BuiltSessionServesTheRest` | app/api/chat.py:38-99 | When the first message creates the session for a new id and every message is answered, the later messages use the cache the first one left: the run ends with exactly that one new session cached. They also build on the store the first one filled, and each reply is sent in turn. |
| `ChatApi.WsRunStoreGrows` | app/api/chat.py:38-147 | The loop threads one store per connection: every conversation's history before the run is a prefix of its history after it. |
| `ChatApi.WsRunCacheGrows` | app/api/chat.py:20-153 | The loop threads the process-wide cache: no cached id is dropped, and a conversation switched to `SimpleChat` stays a `SimpleChat`. |
| `ChatApi.WsRunKeepsEarlierState` | app/api/chat.py:20-158 | Whatever the first j messages leave behind, the rest of the run keeps: their cached ids, their `SimpleChat` switches, and every history they produced as a prefix of the final one. |
| `ChatApi.CachedConversationAnswers` | app/api/chat.py:40-99 | In such a run the cache is unchanged, the id stays current, and the k-th message's reply is the response frame at position 2k+1. |
| `ChatApi.CachedConversationAccumulates` | app/api/chat.py:38-92 | In such a run the id's history gains user turn then reply for each message, in order, and no other conversation changes. |
| `ChatApi.UserTurnSavedTwiceOnRetry` | app/api/chat.py:77-125 | A failed first call followed by a successful retry leaves the user turn twice in the connection's store, then the reply. |
| `ChatApi.OnlyFallbackSavedWhenNoSessionBuilds` | app/api/chat.py:134-153 | When both constructors raise, only the fallback assistant turn is saved, an error frame is sent, and the cache is unchanged. |
| `Server.PostAsWritten` | app/api/chat.py:20-28 | Each POST is answered as by the dispatcher over a fresh empty store. The server keeps exactly the cache that request left behind, and the mode flag, and nothing of the store. |
| `Server.HistoryAsWritten` | app/api/chat.py:284-301 | With the per-request store, every history request is a 404. |
| `Server.PostedHistoryLostAsWritten` | app/api/chat.py:26-28 | As written, the history of a conversation just posted to is not found. |
| `Server.GreetingRoundTripAsWritten` | tests/test_chat_api.py:42-50 | As written, posting `你好` without an id and then fetching that id's history yields 404. |
| `Server.InitialServer` | app/services/chat_service.py:10-13 | The shared server starts with an empty cache, an empty store and the given mode flag. |
| `Server.PostShared` | app/api/chat.py:161-212 | With one shared store, a POST appends the user turn and the answer to the returned id's history. The server keeps the cache the request left behind and its mode flag. The store gains at most that id as a key, every other history is unchanged, and every history stays under its own id. |
| `Server.HistoryShared` | app/api/chat.py:298-301 | 404 exactly when the shared store has no history for the id. |
| `Server.PostedHistoryFoundShared` | tests/test_chat_api.py:42-50 | With a shared store, the history of a conversation just posted to is found under its id. It has at least two messages and ends with the user turn and the answer. |
| `Server.GreetingRoundTripShared` | tests/test_chat_api.py:25-50 | From start-up, posting `你好` without an id returns the fresh id, and that id's history then holds exactly two messages. |

## Left out

- The ReAct loop, its iteration cap of 3 and parse-error recovery run inside LangChain's `AgentExecutor` and are not visible. What the executor or chain produced is an input to `Agents.AgentProcess` and `Agents.SimpleProcess`.
- Conversation memory inside the sessions (`ConversationBufferMemory`) is not modelled. It is internal to LangChain and does not affect the store or the dispatch.
- Network and provider calls: the key probe is an oracle function. Client construction is reduced to its arguments (`Llm.CreateLlm`), and whether a session constructor raises is an oracle value.
- FastAPI wiring, CORS, the static mount and redirect in app/main.py, and the CLI startup in run.py are not modelled. They contain no chat logic.
- WebSocket transport: `accept`, `receive_text`, disconnects, and a `send_json` that raises are not modelled. Frames are returned as a sequence. JSON decoding is not modelled: an inbound frame arrives already classified as an object, some other JSON value, or non-JSON text.
- ChatApi.ParseInbound: only string-valued JSON members are modelled. A non-string `message` or `conversation_id` value, and a truthy non-string id, are left out.
- ChatApi.ChatMessage: the branch that mints a second id when `conversation_id` was never bound (app/api/chat.py:275-281) is not modelled. It needs `uuid4` itself to raise, which does not happen.
- Text.Lower: only ASCII letters are lower-cased. Python's full Unicode `str.lower` also maps characters such as the Kelvin sign to ASCII letters.
- Tools.GetCurrentTime: the clock reading is an input and must have a four-digit year. Python's `%Y` for years below 1000 depends on the platform's `strftime`.
- Temperatures are `real` and only passed through; floating-point rounding is not modelled.
- Configuration loading (dotenv, environment reads in config/deepseek_config.py) is not modelled. Its values are parameters, and only the `USE_SIMPLE_CHAT` flag rule is modelled (`ChatApi.UseSimpleChat`).
- Concurrency: the endpoints' `await` points and unsynchronised access to the process-wide cache are not modelled. Requests are handled one at a time.
- Logging and the request/response schema validation are not modelled. The schemas appear only as datatypes.

## Findings

| source | as written | input that shows it | evidently intended | confidence | as-written member | corrected member |
|---|---|---|---|---|---|---|
| app/api/chat.py:26-28 | The store dependency builds a new, empty `ChatService` for every request, so what `POST /chat/message` saves is discarded when the request ends. | `POST /chat/message` with `{"message": "你好"}`, then `GET /chat/history/<returned id>`: the answer is 404. | The history endpoint finds the conversation, with at least a user and an assistant message (tests/test_chat_api.py:42-50). | high; not executed | `Server.GreetingRoundTripAsWritten` | `Server.GreetingRoundTripShared` |

=== FILE: agents.dfy ===
/**
 The `process_message` wrappers of the two session kinds. The reasoning
 loop and the conversation chain are opaque: what they yield is an input,
 and each wrapper turns every outcome, an exception included, into a
 reply.
 */
module Agents {
  import opened Base
  import opened Schemas

  /** What the process-wide cache holds per conversation: a tool-using agent or a plain chat. */
  datatype SessionKind = AgentSession | SimpleSession

  /** The dictionary `process_message` returns: `response` and `thoughts`. */
  datatype Reply = Reply(response: string, thoughts: seq<Step>)

  const AgentApology: string := "我理解您的问题，但目前处理过程中遇到了一些技术问题。请稍后再试或换一种方式提问。"
  const SimpleApology: string := "抱歉，我现在无法正确处理您的请求。请稍后再试。"

  /** What the agent executor's `ainvoke` yields: a result dictionary whose keys may be missing, or an exception. */
  datatype AgentRun = AgentFinished(output: Option<string>, steps: Option<seq<Step>>) | AgentRaised

  /** What the conversation chain's `ainvoke` yields. */
  datatype ChainRun = ChainFinished(response: Option<string>) | ChainRaised

  /**
   `ChatAgent.process_message`: the executor's output and intermediate
   steps (defaults `""` and `[]`), or the fixed apology with no steps
   when the executor raised.
   */
  function AgentProcess(run: AgentRun): (r: Reply)
    ensures run.AgentRaised? ==> r == Reply(AgentApology, [])
    ensures run.AgentFinished? ==> r.response == run.output.GetOr("") && r.thoughts == run.steps.GetOr([])
  {
    match run
    case AgentFinished(output, steps) => Reply(output.GetOr(""), steps.GetOr([]))
    case AgentRaised => Reply(AgentApology, [])
  }

  /** `SimpleChat.process_message`: never any thoughts; the chain's response, or its apology when it raised. */
  function SimpleProcess(run: ChainRun): (r: Reply)
    ensures r.thoughts == []
    ensures run.ChainRaised? ==> r.response == SimpleApology
    ensures run.ChainFinished? ==> r.response == run.response.GetOr("")
  {
    match run
    case ChainFinished(response) => Reply(response.GetOr(""), [])
    case ChainRaised => Reply(SimpleApology, [])
  }
}

=== FILE: base.dfy ===
/** Python's `Optional[T]`: a value that may be `None`. */
module Base {

  datatype Option<+T> = None | Some(value: T) {

    /** The value, or `default` when it is `None` (Python's `x if x is not None else default`). */
    function GetOr(default: T): T {
      match this
      case Some(v) => v
      case None => default
    }
  }
}

=== FILE: chat_api.dfy ===
/**
 The chat endpoints: `POST /chat/message`, `GET /chat/history/{id}` and
 the `/chat/ws` WebSocket. Each is a state transition over the
 process-wide session cache and a conversation store that the caller
 supplies (the endpoints build a fresh one per request or per
 connection). Everything the endpoints cannot decide themselves, a fresh
 id, whether a session constructor raises, what a session replies, is
 an oracle value.
 */
module ChatApi {
  import opened Base
  import opened Text
  import opened Schemas
  import opened ChatService
  import opened Agents

  /** The process-wide `_chat_cache`: which kind of session serves each conversation. */
  type Cache = map<string, SessionKind>

  const FallbackText: string := "抱歉，我现在无法处理您的请求。可能是网络问题或API限制。请稍后再试。"
  const ThinkingText: string := "正在思考..."

  /** `os.getenv('USE_SIMPLE_CHAT', 'false').lower() == 'true'`. */
  function UseSimpleChat(env: Option<string>): (r: bool)
    ensures env.None? ==> !r
    ensures r <==> (&& env.Some? && |env.value| == 4
                    && env.value[0] in "tT" && env.value[1] in "rR"
                    && env.value[2] in "uU" && env.value[3] in "eE")
  {
    Lower(env.GetOr("false")) == "true"
  }

  /** The session kind a cache miss creates. */
  function PrimaryKind(useSimple: bool): SessionKind {
    if useSimple then SimpleSession else AgentSession
  }

  /** What a session's `process_message` did: a reply, or an exception. */
  datatype Outcome = Ok(reply: Reply) | Fail

  /**
   The oracle answers one message needs, in call order: does the
   primary constructor return (asked only on a cache miss), does the
   `SimpleChat()` fallback constructor return (asked only when the
   fallback needs a new session), and what the first and second
   `process_message` calls yield.
   */
  datatype Calls = Calls(buildPrimary: bool, buildFallback: bool, firstCall: Outcome, secondCall: Outcome)

  /** The oracles of one HTTP request: the `uuid4` it may draw and its calls. */
  datatype HttpOracles = HttpOracles(freshId: string, calls: Calls)

  /** `request.conversation_id or str(uuid.uuid4())`. */
  function ResolveConversationId(requested: Option<string>, freshId: string): (id: string)
    ensures requested.Some? && requested.value != "" ==> id == requested.value
    ensures requested.None? || requested.value == "" ==> id == freshId
  {
    if requested.Some? && requested.value != "" then requested.value else freshId
  }

  /**
   Get-or-create the session for `id`: an existing entry is reused
   untouched; a miss stores a new session of the configured kind, unless
   its constructor raised (`None`), which leaves the cache as it was.
   */
  function LookupOrCreate(cache: Cache, id: string, useSimple: bool, built: bool): (r: Option<Cache>)
    ensures id in cache ==> r == Some(cache)
    ensures id !in cache && built ==> r == Some(cache[id := PrimaryKind(useSimple)])
    ensures id !in cache && !built ==> r.None?
  {
    if id in cache then Some(cache)
    else if built then Some(cache[id := PrimaryKind(useSimple)])
    else None
  }

  /** The user turn followed by the assistant turn, as two `save_message` calls. */
  function SaveExchange(store: Store, id: string, userText: string, assistantText: string): (r: Store)
    ensures GetMessages(r, id) == GetMessages(store, id) + [Message(UserRole, userText), Message(AssistantRole, assistantText)]
    ensures forall k :: k != id ==> GetMessages(r, k) == GetMessages(store, k)
    ensures WellKeyed(store) ==> WellKeyed(r)
    ensures r.Keys == store.Keys + {id}
    ensures forall k :: k in store && k != id ==> r[k] == store[k]
  {
    var once := SaveMessage(store, id, UserRole, userText);
    SaveMessageAppends(store, id, UserRole, userText);
    SaveMessageAppends(once, id, AssistantRole, assistantText);
    SaveMessage(once, id, AssistantRole, assistantText)
  }

  /** The endpoint's result and the cache and store it leaves behind. */
  datatype Dispatch = Dispatch(response: ChatResponse, cache: Cache, store: Store)

  /**
   `POST /chat/message`. Every path returns a response for the resolved
   id, and every path saves the user turn followed by an assistant turn
   carrying exactly the returned text; nothing else in the store or the
   cache changes. The text is the first reply, the retried reply, or the
   fixed fallback.
   */
  function ChatMessage(cache: Cache, useSimple: bool, store: Store, request: ChatRequest, oracles: HttpOracles): (r: Dispatch)
    ensures r.response.conversationId == ResolveConversationId(request.conversationId, oracles.freshId)
    ensures GetMessages(r.store, r.response.conversationId)
         == GetMessages(store, r.response.conversationId)
            + [Message(UserRole, request.message), Message(AssistantRole, r.response.response)]
    ensures forall k :: k != r.response.conversationId ==> GetMessages(r.store, k) == GetMessages(store, k)
    ensures WellKeyed(store) ==> WellKeyed(r.store)
    ensures r.store.Keys == store.Keys + {r.response.conversationId}
    ensures forall k :: k in store && k != r.response.conversationId ==> r.store[k] == store[k]
    ensures cache.Keys <= r.cache.Keys <= cache.Keys + {r.response.conversationId}
    ensures forall k :: k in cache && k != r.response.conversationId ==> r.cache[k] == cache[k]
    ensures r.response.thoughts.Some?
    ensures || r.response.response == FallbackText
            || (oracles.calls.firstCall.Ok? && r.response.response == oracles.calls.firstCall.reply.response)
            || (oracles.calls.secondCall.Ok? && r.response.response == oracles.calls.secondCall.reply.response)
  {
    var id := ResolveConversationId(request.conversationId, oracles.freshId);
    var calls := oracles.calls;
    match LookupOrCreate(cache, id, useSimple, calls.buildPrimary)
    case None =>
      // The constructor raised before anything was cached.
      HttpFallback(cache, store, request.message, id, calls)
    case Some(cache1) =>
      match calls.firstCall
      case Ok(reply) =>
        Dispatch(ChatResponse(reply.response, id, Some(reply.thoughts)), cache1,
                 SaveExchange(store, id, request.message, reply.response))
      case Fail =>
        HttpFallback(cache1, store, request.message, id, calls)
  }

  /**
   The `except` branch of `POST /chat/message`: a retry on a `SimpleChat`
   session only when the id is already cached, otherwise (or when the
   retry fails) the fixed fallback text. Either way the user turn and
   the answer are saved and the thoughts are empty.
   */
  function HttpFallback(cache: Cache, store: Store, message: string, id: string, calls: Calls): (r: Dispatch)
    ensures r.response.conversationId == id
    ensures r.response.thoughts == Some([])
    ensures r.store == SaveExchange(store, id, message, r.response.response)
    ensures id !in cache ==> r.cache == cache && r.response.response == FallbackText
    ensures id in cache && cache[id] != SimpleSession && !calls.buildFallback ==>
      r.cache == cache && r.response.response == FallbackText
    ensures id in cache && (cache[id] == SimpleSession || calls.buildFallback) ==>
      && r.cache == cache[id := SimpleSession]
      && r.response.response == (if calls.secondCall.Ok? then calls.secondCall.reply.response else FallbackText)
  {
    var failed := Dispatch(ChatResponse(FallbackText, id, Some([])), cache,
                           SaveExchange(store, id, message, FallbackText));
    if id !in cache then failed
    else if cache[id] != SimpleSession && !calls.buildFallback then failed
    else
      var cache2 := cache[id := SimpleSession];
      match calls.secondCall
      case Ok(reply) =>
        Dispatch(ChatResponse(reply.response, id, Some([])), cache2, SaveExchange(store, id, message, reply.response))
      case Fail =>
        failed.(cache := cache2)
  }

  /** Primary success: the reply and its thoughts are returned and saved after the user turn. */
  lemma PrimarySuccess(cache: Cache, useSimple: bool, store: Store, request: ChatRequest, oracles: HttpOracles)
    requires var id := ResolveConversationId(request.conversationId, oracles.freshId);
      (id in cache || oracles.calls.buildPrimary) && oracles.calls.firstCall.Ok?
    ensures var id := ResolveConversationId(request.conversationId, oracles.freshId);
      var reply := oracles.calls.firstCall.reply;
      var r := ChatMessage(cache, useSimple, store, request, oracles);
      && r.response == ChatResponse(reply.response, id, Some(reply.thoughts))
      && r.cache == (if id in cache then cache else cache[id := PrimaryKind(useSimple)])
      && r.store == SaveExchange(store, id, request.message, reply.response)
  {
  }

  /**
   A session that is in the cache when its call fails, whether it was
   there before the request or was built by it, is swapped for a
   `SimpleChat` (unless it already is one) and asked once more.
   */
  lemma RetryOnCachedSession(cache: Cache, useSimple: bool, store: Store, request: ChatRequest, oracles: HttpOracles)
    requires var id := ResolveConversationId(request.conversationId, oracles.freshId);
      && (id in cache || oracles.calls.buildPrimary) && oracles.calls.firstCall.Fail?
      && ((if id in cache then cache[id] else PrimaryKind(useSimple)) == SimpleSession || oracles.calls.buildFallback)
    ensures var id := ResolveConversationId(request.conversationId, oracles.freshId);
      var r := ChatMessage(cache, useSimple, store, request, oracles);
      && r.cache == cache[id := SimpleSession]
      && (oracles.calls.secondCall.Ok? ==>
            r.response == ChatResponse(oracles.calls.secondCall.reply.response, id, Some([])))
      && (oracles.calls.secondCall.Fail? ==> r.response == ChatResponse(FallbackText, id, Some([])))
      && r.store == SaveExchange(store, id, request.message, r.response.response)
  {
  }

  /**
   A session in the cache whose call failed, which is not a `SimpleChat`
   and whose `SimpleChat()` replacement raises, stays cached as it is,
   and the answer is the fallback text.
   */
  lemma FailedSwitchKeepsSession(cache: Cache, useSimple: bool, store: Store, request: ChatRequest, oracles: HttpOracles)
    requires var id := ResolveConversationId(request.conversationId, oracles.freshId);
      && (id in cache || oracles.calls.buildPrimary) && oracles.calls.firstCall.Fail?
      && (if id in cache then cache[id] else PrimaryKind(useSimple)) != SimpleSession && !oracles.calls.buildFallback
    ensures var id := ResolveConversationId(request.conversationId, oracles.freshId);
      var r := ChatMessage(cache, useSimple, store, request, oracles);
      && r.response == ChatResponse(FallbackText, id, Some([]))
      && r.cache == (if id in cache then cache else cache[id := AgentSession])
      && r.store == SaveExchange(store, id, request.message, FallbackText)
  {
  }

  /**
   A constructor failure leaves the id uncached, so no retry is made:
   the answer is the fallback text and the cache is unchanged.
   */
  lemma ConstructorFailureSkipsRetry(cache: Cache, useSimple: bool, store: Store, request: ChatRequest, oracles: HttpOracles)
    requires var id := ResolveConversationId(request.conversationId, oracles.freshId);
      id !in cache && !oracles.calls.buildPrimary
    ensures var id := ResolveConversationId(request.conversationId, oracles.freshId);
      var r := ChatMessage(cache, useSimple, store, request, oracles);
      && r.response == ChatResponse(FallbackText, id, Some([]))
      && r.cache == cache
      && r.store == SaveExchange(store, id, request.message, FallbackText)
  {
  }

  /**
   Both session kinds catch every exception in `process_message`, so the
   first call never fails; then the cache never switches a session to
   `SimpleChat`, and the fallback text is returned exactly when the
   constructor of a new session raised.
   */
  lemma NoRetryWhenSessionsNeverRaise(cache: Cache, useSimple: bool, store: Store, request: ChatRequest, oracles: HttpOracles,
                                      run: SessionRun)
    requires oracles.calls.firstCall == ProcessMessage(run)
    ensures var id := ResolveConversationId(request.conversationId, oracles.freshId);
      var r := ChatMessage(cache, useSimple, store, request, oracles);
      && (r.cache == cache || r.cache == cache[id := PrimaryKind(useSimple)])
      && (r.response.response == FallbackText <==>
            (id !in cache && !oracles.calls.buildPrimary) || oracles.calls.firstCall.reply.response == FallbackText)
  {
  }

  /** What the session's own model machinery did, for either kind of session. */
  datatype SessionRun = AgentRan(agentRun: AgentRun) | ChainRan(chainRun: ChainRun)

  /**
   `process_message` of a cached session, seen from the dispatcher: both
   kinds catch every exception themselves, so the call never fails, and
   a `SimpleChat` never reports thoughts.
   */
  function ProcessMessage(run: SessionRun): (r: Outcome)
    ensures r.Ok?
    ensures run.ChainRan? ==> r.reply.thoughts == []
    ensures run.AgentRan? && run.agentRun.AgentRaised? ==> r.reply.response == AgentApology
  {
    match run
    case AgentRan(a) => Ok(AgentProcess(a))
    case ChainRan(c) => Ok(SimpleProcess(c))
  }

  // ---------------------------------------------------------------------
  // History endpoint

  datatype HistoryReply = Found(history: ConversationHistory) | NotFound404

  /** `GET /chat/history/{id}`: the stored history, or 404 when there is none. */
  function ChatHistory(store: Store, id: string): (r: HistoryReply)
    ensures r.NotFound404? <==> id !in store
    ensures r.Found? ==> r.history == store[id] && r.history.messages == GetMessages(store, id)
  {
    match GetConversationHistory(store, id)
    case None => NotFound404
    case Some(h) => Found(h)
  }

  // ---------------------------------------------------------------------
  // WebSocket endpoint

  /**
   One inbound text frame, as `json.loads` classifies it: a JSON object
   (its string members), some other JSON value, or text that is not JSON.
   */
  datatype Inbound = JsonObject(fields: map<string, string>) | JsonOther | PlainText(raw: string)

  datatype FrameType = Thinking | ResponseFrame | ErrorFrame

  /** One outbound JSON frame: `{type, content, conversation_id}`. */
  datatype Frame = Frame(kind: FrameType, content: string, conversationId: string)

  /** The per-connection state: the current conversation id and the connection's own store. */
  datatype Connection = Connection(conversationId: string, store: Store)

  /**
   The message text and the conversation id one inbound frame selects.
   A JSON object gives its `message` member (default `""`) and switches
   the id only when `conversation_id` is non-empty; plain text is the
   message verbatim under the current id. Any other JSON value has no
   `.get`, so the resulting exception ends the connection: `None`.
   */
  function ParseInbound(current: string, inbound: Inbound): (r: Option<(string, string)>)
    ensures inbound.JsonOther? <==> r.None?
    ensures inbound.PlainText? ==> r == Some((inbound.raw, current))
    ensures inbound.JsonObject? ==>
      (&& r.Some?
       && r.value.0 == (if "message" in inbound.fields then inbound.fields["message"] else "")
       && r.value.1 == (if "conversation_id" in inbound.fields && inbound.fields["conversation_id"] != ""
                        then inbound.fields["conversation_id"] else current))
  {
    match inbound
    case JsonOther => None
    case PlainText(raw) => Some((raw, current))
    case JsonObject(fields) =>
      var message := if "message" in fields then fields["message"] else "";
      var id := if "conversation_id" in fields && fields["conversation_id"] != "" then fields["conversation_id"] else current;
      Some((message, id))
  }

  /** The connection and cache after one inbound frame, the frames sent, and whether the loop goes on. */
  datatype WsStep = WsStep(conn: Connection, cache: Cache, frames: seq<Frame>, open: bool)

  /** The frames answer one message each: a thinking frame, then one response or error frame for the same id. */
  predicate Protocol(frames: seq<Frame>)
    decreases |frames|
  {
    |frames| == 0 ||
    (&& |frames| >= 2
     && frames[0].kind == Thinking
     && frames[1].kind != Thinking
     && frames[0].conversationId == frames[1].conversationId
     && Protocol(frames[2..]))
  }

  /** Any history extended by a tail whose last message is `last`. */
  ghost predicate ExtendedEndingWith(before: seq<Message>, after: seq<Message>, last: Message) {
    |after| > |before| && after[..|before|] == before && after[|after| - 1] == last
  }

  /** `after` is `before` followed by `tail`, and `tail` ends with `last`. */
  lemma ExtendedBy(before: seq<Message>, tail: seq<Message>, last: Message)
    requires |tail| > 0 && tail[|tail| - 1] == last
    ensures ExtendedEndingWith(before, before + tail, last)
  {
  }

  /**
   One iteration of the WebSocket loop. For a usable frame it sends a
   thinking frame and then exactly one response or error frame, all for
   the selected id, which stays current for later messages.
   */
  function WsHandle(conn: Connection, cache: Cache, useSimple: bool, inbound: Inbound, calls: Calls): (r: WsStep)
    ensures ParseInbound(conn.conversationId, inbound).None? ==>
      !r.open && r.frames == [] && r.conn == conn && r.cache == cache
    ensures ParseInbound(conn.conversationId, inbound).Some? ==>
      var (message, id) := ParseInbound(conn.conversationId, inbound).value;
      r == WsAnswer(conn.store, cache, useSimple, message, id, calls)
    ensures Protocol(r.frames)
  {
    match ParseInbound(conn.conversationId, inbound)
    case None => WsStep(conn, cache, [], false)
    case Some((message, id)) =>
      var r := WsAnswer(conn.store, cache, useSimple, message, id, calls);
      ExchangeIsProtocol(r.frames);
      r
  }

  /**
   The answer to one message under conversation `id`: a thinking frame
   and then exactly one response or error frame for that id, which
   becomes the connection's current id. The cache changes at most at `id`.
   */
  function WsAnswer(store: Store, cache: Cache, useSimple: bool, message: string, id: string, calls: Calls): (r: WsStep)
    ensures r.open && r.conn.conversationId == id
    ensures |r.frames| == 2 && r.frames[0] == Frame(Thinking, ThinkingText, id)
    ensures r.frames[1].kind != Thinking && r.frames[1].conversationId == id
    ensures r.frames[1].kind == ErrorFrame ==> r.frames[1].content == FallbackText
    ensures cache.Keys <= r.cache.Keys <= cache.Keys + {id}
    ensures forall k :: k in cache && k != id ==> r.cache[k] == cache[k]
    ensures Protocol(r.frames)
  {
    match LookupOrCreate(cache, id, useSimple, calls.buildPrimary)
    case None =>
      var r := WsFallback(store, cache, message, id, calls);
      ExchangeIsProtocol(r.frames);
      r
    case Some(cache1) =>
      var r := WsAsk(store, cache1, message, id, calls);
      ExchangeIsProtocol(r.frames);
      CacheChangesAtMostAt(cache, cache1, r.cache, id, PrimaryKind(useSimple));
      r
  }

  /** Two updates confined to `id` together change the cache at most at `id`. */
  lemma CacheChangesAtMostAt(cache: Cache, cache1: Cache, cache2: Cache, id: string, kind: SessionKind)
    requires cache1 == cache || cache1 == cache[id := kind]
    requires cache2 == cache1 || cache2 == cache1[id := SimpleSession]
    ensures cache.Keys <= cache2.Keys <= cache.Keys + {id}
    ensures forall k :: k in cache && k != id ==> cache2[k] == cache[k]
  {
  }

  /**
   The `try` body once a session for `id` is in the cache: save the user
   turn, ask the session, and on success save and send its reply.
   */
  function WsAsk(store: Store, cache: Cache, message: string, id: string, calls: Calls): (r: WsStep)
    ensures r.open && r.conn.conversationId == id
    ensures |r.frames| == 2 && r.frames[0] == Frame(Thinking, ThinkingText, id)
    ensures r.frames[1].kind != Thinking && r.frames[1].conversationId == id
    ensures r.frames[1].kind == ErrorFrame ==> r.frames[1].content == FallbackText
    ensures r.cache == cache || r.cache == cache[id := SimpleSession]
    ensures calls.firstCall.Ok? ==>
      && r.cache == cache
      && r.frames[1] == Frame(ResponseFrame, calls.firstCall.reply.response, id)
      && r.conn.store == SaveExchange(store, id, message, calls.firstCall.reply.response)
    ensures calls.firstCall.Fail? ==>
      r == WsFallback(SaveMessage(store, id, UserRole, message), cache, message, id, calls)
  {
    var thinking := Frame(Thinking, ThinkingText, id);
    // The user turn is saved before the session is asked.
    var store1 := SaveMessage(store, id, UserRole, message);
    match calls.firstCall
    case Ok(reply) =>
      WsStep(Connection(id, SaveMessage(store1, id, AssistantRole, reply.response)), cache,
             [thinking, Frame(ResponseFrame, reply.response, id)], true)
    case Fail =>
      WsFallback(store1, cache, message, id, calls)
  }

  /** Whether a session for `id` is in the cache once the get-or-create step has run. */
  predicate SessionAvailable(cache: Cache, id: string, calls: Calls) {
    id in cache || calls.buildPrimary
  }

  /**
   Whether the `except` branch of the WebSocket loop asks a `SimpleChat`:
   the first attempt failed (no session, or its call raised) and the
   session for `id` is already a `SimpleChat` or a new one could be built.
   */
  predicate WsRetries(cache: Cache, useSimple: bool, id: string, calls: Calls) {
    var available := SessionAvailable(cache, id, calls);
    var isSimple := available && (if id in cache then cache[id] else PrimaryKind(useSimple)) == SimpleSession;
    (!available || calls.firstCall.Fail?) && (isSimple || calls.buildFallback)
  }

  /** The text some session answered one WebSocket message with, if any call succeeded. */
  function WsAnswered(cache: Cache, useSimple: bool, id: string, calls: Calls): Option<string> {
    if SessionAvailable(cache, id, calls) && calls.firstCall.Ok? then Some(calls.firstCall.reply.response)
    else if WsRetries(cache, useSimple, id, calls) && calls.secondCall.Ok? then Some(calls.secondCall.reply.response)
    else None
  }

  /**
   The frames and cache of one answer agree with the reference outcome:
   the first successful call's text goes out in a response frame,
   otherwise an error frame carries the fallback text; the cache gains
   the new session, or a `SimpleChat` whenever the loop retried.
   */
  predicate OutcomeAgrees(r: WsStep, cache: Cache, useSimple: bool, id: string, calls: Calls)
    requires |r.frames| == 2
  {
    var answered := WsAnswered(cache, useSimple, id, calls);
    && (answered.Some? ==> r.frames[1] == Frame(ResponseFrame, answered.value, id))
    && (answered.None? ==> r.frames[1] == Frame(ErrorFrame, FallbackText, id))
    && r.cache == (if WsRetries(cache, useSimple, id, calls) then cache[id := SimpleSession]
                   else if id in cache || !calls.buildPrimary then cache
                   else cache[id := PrimaryKind(useSimple)])
  }

  /**
   The turns one answer appends to the id's history: the user turn first
   whenever a session was there to ask, the user turn again with the
   reply on a successful retry, and the fallback assistant turn alone
   when no call succeeded.
   */
  predicate TurnsAgree(before: seq<Message>, after: seq<Message>, cache: Cache, useSimple: bool, message: string,
                       id: string, calls: Calls)
  {
    var userFirst := if SessionAvailable(cache, id, calls) then [Message(UserRole, message)] else [];
    && (SessionAvailable(cache, id, calls) && calls.firstCall.Ok? ==>
          after == before + [Message(UserRole, message), Message(AssistantRole, calls.firstCall.reply.response)])
    && (WsRetries(cache, useSimple, id, calls) && calls.secondCall.Ok? ==>
          after == before + userFirst + [Message(UserRole, message), Message(AssistantRole, calls.secondCall.reply.response)])
    && (WsAnswered(cache, useSimple, id, calls).None? ==>
          after == before + userFirst + [Message(AssistantRole, FallbackText)])
  }

  /** The answer to one WebSocket message agrees with the reference outcome, in frames, cache and store. */
  lemma WsAnswerOutcome(store: Store, cache: Cache, useSimple: bool, message: string, id: string, calls: Calls)
    ensures var r := WsAnswer(store, cache, useSimple, message, id, calls);
      && OutcomeAgrees(r, cache, useSimple, id, calls)
      && TurnsAgree(GetMessages(store, id), GetMessages(r.conn.store, id), cache, useSimple, message, id, calls)
  {
    if !SessionAvailable(cache, id, calls) {
      NoSessionOutcome(store, cache, useSimple, message, id, calls);
    } else if calls.firstCall.Ok? {
      FirstCallOutcome(store, cache, useSimple, message, id, calls);
    } else {
      RetryOutcome(store, cache, useSimple, message, id, calls);
    }
  }

  /** No session could be built: the loop goes straight to the fallback. */
  lemma NoSessionOutcome(store: Store, cache: Cache, useSimple: bool, message: string, id: string, calls: Calls)
    requires !SessionAvailable(cache, id, calls)
    ensures var r := WsAnswer(store, cache, useSimple, message, id, calls);
      && OutcomeAgrees(r, cache, useSimple, id, calls)
      && TurnsAgree(GetMessages(store, id), GetMessages(r.conn.store, id), cache, useSimple, message, id, calls)
  {
    var r := WsAnswer(store, cache, useSimple, message, id, calls);
    assert r == WsFallback(store, cache, message, id, calls);
    assert WsRetries(cache, useSimple, id, calls) == calls.buildFallback;
    FallbackTurns(store, cache, message, id, calls);
  }

  /** The session answered the first call. */
  lemma FirstCallOutcome(store: Store, cache: Cache, useSimple: bool, message: string, id: string, calls: Calls)
    requires SessionAvailable(cache, id, calls) && calls.firstCall.Ok?
    ensures var r := WsAnswer(store, cache, useSimple, message, id, calls);
      && OutcomeAgrees(r, cache, useSimple, id, calls)
      && TurnsAgree(GetMessages(store, id), GetMessages(r.conn.store, id), cache, useSimple, message, id, calls)
  {
    var cache1 := LookupOrCreate(cache, id, useSimple, calls.buildPrimary).value;
    var r := WsAnswer(store, cache, useSimple, message, id, calls);
    assert r == WsAsk(store, cache1, message, id, calls);
    assert !WsRetries(cache, useSimple, id, calls);
  }

  /** The session's first call raised: the loop retries on a `SimpleChat` if it has or can build one. */
  lemma RetryOutcome(store: Store, cache: Cache, useSimple: bool, message: string, id: string, calls: Calls)
    requires SessionAvailable(cache, id, calls) && calls.firstCall.Fail?
    ensures var r := WsAnswer(store, cache, useSimple, message, id, calls);
      && OutcomeAgrees(r, cache, useSimple, id, calls)
      && TurnsAgree(GetMessages(store, id), GetMessages(r.conn.store, id), cache, useSimple, message, id, calls)
  {
    var cache1 := LookupOrCreate(cache, id, useSimple, calls.buildPrimary).value;
    var store1 := SaveMessage(store, id, UserRole, message);
    var r := WsAnswer(store, cache, useSimple, message, id, calls);
    assert r == WsFallback(store1, cache1, message, id, calls) by {
      assert r == WsAsk(store, cache1, message, id, calls);
    }
    assert WsRetries(cache, useSimple, id, calls) == ((id in cache1 && cache1[id] == SimpleSession) || calls.buildFallback);
    RetryFrames(store1, cache, cache1, useSimple, message, id, calls);
    SaveMessageAppends(store, id, UserRole, message);
    RetryTurns(store, store1, cache, cache1, useSimple, message, id, calls);
  }

  /** The retry's frames and cache, from the cache after the get-or-create step. */
  lemma RetryFrames(store1: Store, cache: Cache, cache1: Cache, useSimple: bool, message: string, id: string, calls: Calls)
    requires SessionAvailable(cache, id, calls) && calls.firstCall.Fail?
    requires cache1 == LookupOrCreate(cache, id, useSimple, calls.buildPrimary).value
    requires WsRetries(cache, useSimple, id, calls) == ((id in cache1 && cache1[id] == SimpleSession) || calls.buildFallback)
    ensures OutcomeAgrees(WsFallback(store1, cache1, message, id, calls),
                          cache, useSimple, id, calls)
  {
    var r := WsFallback(store1, cache1, message, id, calls);
    FallbackTurns(store1, cache1, message, id, calls);
    assert cache1 == (if id in cache then cache else cache[id := PrimaryKind(useSimple)]);
    assert cache1[id := SimpleSession] == cache[id := SimpleSession];
    if WsRetries(cache, useSimple, id, calls) {
      assert r.cache == cache[id := SimpleSession];
    } else {
      assert r.cache == cache1;
    }
    assert WsAnswered(cache, useSimple, id, calls)
        == (if WsRetries(cache, useSimple, id, calls) && calls.secondCall.Ok?
            then Some(calls.secondCall.reply.response) else None);
  }

  /** The retry's turns: the user turn saved before the first call, then what the fallback saves. */
  lemma RetryTurns(store: Store, store1: Store, cache: Cache, cache1: Cache, useSimple: bool, message: string, id: string,
                   calls: Calls)
    requires SessionAvailable(cache, id, calls) && calls.firstCall.Fail?
    requires GetMessages(store1, id) == GetMessages(store, id) + [Message(UserRole, message)]
    requires WsRetries(cache, useSimple, id, calls) == ((id in cache1 && cache1[id] == SimpleSession) || calls.buildFallback)
    ensures var r := WsFallback(store1, cache1, message, id, calls);
      TurnsAgree(GetMessages(store, id), GetMessages(r.conn.store, id), cache, useSimple, message, id, calls)
  {
    var r := WsFallback(store1, cache1, message, id, calls);
    FallbackTurns(store1, cache1, message, id, calls);
    var before := GetMessages(store, id);
    var user := Message(UserRole, message);
    if WsRetries(cache, useSimple, id, calls) && calls.secondCall.Ok? {
      var last := Message(AssistantRole, calls.secondCall.reply.response);
      assert GetMessages(r.conn.store, id) == (before + [user]) + [user, last];
    } else {
      assert WsAnswered(cache, useSimple, id, calls).None?;
    }
  }

  /** The fallback's frames, cache and turns, by whether it retries and the retry answers. */
  lemma FallbackTurns(store: Store, cache: Cache, message: string, id: string, calls: Calls)
    ensures var r := WsFallback(store, cache, message, id, calls);
      var retries := (id in cache && cache[id] == SimpleSession) || calls.buildFallback;
      && (retries ==> r.cache == cache[id := SimpleSession])
      && (!retries ==> r.cache == cache)
      && (retries && calls.secondCall.Ok? ==>
            && r.frames[1] == Frame(ResponseFrame, calls.secondCall.reply.response, id)
            && GetMessages(r.conn.store, id) == GetMessages(store, id)
                 + [Message(UserRole, message), Message(AssistantRole, calls.secondCall.reply.response)])
      && (!(retries && calls.secondCall.Ok?) ==>
            && r.frames[1] == Frame(ErrorFrame, FallbackText, id)
            && GetMessages(r.conn.store, id) == GetMessages(store, id) + [Message(AssistantRole, FallbackText)])
  {
    SaveMessageAppends(store, id, AssistantRole, FallbackText);
  }

  /**
   What one WebSocket message does to the connection's store: the id's
   history grows and ends with the assistant turn carrying the terminal
   frame's text, and no other conversation's history changes.
   */
  lemma WsAnswerHistory(store: Store, cache: Cache, useSimple: bool, message: string, id: string, calls: Calls)
    ensures var r := WsAnswer(store, cache, useSimple, message, id, calls);
      && ExtendedEndingWith(GetMessages(store, id), GetMessages(r.conn.store, id),
                            Message(AssistantRole, r.frames[1].content))
      && (forall k :: k != id ==> GetMessages(r.conn.store, k) == GetMessages(store, k))
    ensures var r := WsAnswer(store, cache, useSimple, message, id, calls);
      TurnsAgree(GetMessages(store, id), GetMessages(r.conn.store, id), cache, useSimple, message, id, calls)
  {
    WsAnswerOutcome(store, cache, useSimple, message, id, calls);
    WsAnswerExtends(store, cache, useSimple, message, id, calls);
  }

  /** The id's history grows and ends with the terminal frame's text; no other history changes. */
  lemma WsAnswerExtends(store: Store, cache: Cache, useSimple: bool, message: string, id: string, calls: Calls)
    ensures var r := WsAnswer(store, cache, useSimple, message, id, calls);
      && ExtendedEndingWith(GetMessages(store, id), GetMessages(r.conn.store, id),
                            Message(AssistantRole, r.frames[1].content))
      && (forall k :: k != id ==> GetMessages(r.conn.store, k) == GetMessages(store, k))
  {
    if LookupOrCreate(cache, id, useSimple, calls.buildPrimary).None? {
      assert WsAnswer(store, cache, useSimple, message, id, calls) == WsFallback(store, cache, message, id, calls);
      FallbackExtends(store, cache, message, id, calls);
    } else {
      var cache1 := LookupOrCreate(cache, id, useSimple, calls.buildPrimary).value;
      assert WsAnswer(store, cache, useSimple, message, id, calls) == WsAsk(store, cache1, message, id, calls);
      var store1 := SaveMessage(store, id, UserRole, message);
      SaveMessageAppends(store, id, UserRole, message);
      if calls.firstCall.Ok? {
        var reply := calls.firstCall.reply;
        var last := Message(AssistantRole, reply.response);
        SaveMessageAppends(store1, id, AssistantRole, reply.response);
        assert GetMessages(store, id) + [Message(UserRole, message)] + [last]
            == GetMessages(store, id) + [Message(UserRole, message), last];
        ExtendedBy(GetMessages(store, id), [Message(UserRole, message), last], last);
      } else {
        FallbackExtends(store1, cache1, message, id, calls);
        var r := WsFallback(store1, cache1, message, id, calls);
        ExtendedTransitive(GetMessages(store, id), GetMessages(store1, id), GetMessages(r.conn.store, id),
                           Message(AssistantRole, r.frames[1].content));
      }
    }
  }

  lemma ExtendedTransitive(a: seq<Message>, b: seq<Message>, c: seq<Message>, last: Message)
    requires |b| >= |a| && b[..|a|] == a
    requires ExtendedEndingWith(b, c, last)
    ensures ExtendedEndingWith(a, c, last)
  {
  }

  /** What the fallback saves: the id's history grows and ends with the terminal text. */
  lemma FallbackExtends(store: Store, cache: Cache, message: string, id: string, calls: Calls)
    ensures var r := WsFallback(store, cache, message, id, calls);
      && (forall k :: k != id ==> GetMessages(r.conn.store, k) == GetMessages(store, k))
      && ExtendedEndingWith(GetMessages(store, id) , GetMessages(r.conn.store, id),
                            Message(AssistantRole, r.frames[1].content))
  {
    var r := WsFallback(store, cache, message, id, calls);
    var last := Message(AssistantRole, r.frames[1].content);
    if r.frames[1].kind == ErrorFrame {
      SaveMessageAppends(store, id, AssistantRole, FallbackText);
      ExtendedBy(GetMessages(store, id), [last], last);
    } else {
      ExtendedBy(GetMessages(store, id), [Message(UserRole, message), last], last);
    }
  }

  /**
   The `except` branch of the WebSocket loop: switch to `SimpleChat`
   whenever the current session is not one (cached or not) and ask again;
   on success save the user turn (again) and the reply; if the
   constructor or the call fails, save only the fallback assistant turn
   and send an error frame.
   */
  function WsFallback(store: Store, cache: Cache, message: string, id: string, calls: Calls): (r: WsStep)
    ensures r.open && r.conn.conversationId == id
    ensures |r.frames| == 2 && r.frames[0] == Frame(Thinking, ThinkingText, id)
    ensures r.frames[1].kind != Thinking && r.frames[1].conversationId == id
    ensures r.frames[1].kind == ErrorFrame ==> r.frames[1].content == FallbackText
    ensures r.frames[1].kind == ErrorFrame ==>
      r.conn.store == SaveMessage(store, id, AssistantRole, FallbackText)
    ensures r.frames[1].kind == ResponseFrame ==>
      calls.secondCall.Ok? && r.frames[1].content == calls.secondCall.reply.response &&
      r.conn.store == SaveExchange(store, id, message, r.frames[1].content)
    ensures var isSimple := id in cache && cache[id] == SimpleSession;
      !isSimple && !calls.buildFallback ==>
        r.cache == cache && r.frames[1] == Frame(ErrorFrame, FallbackText, id)
    ensures var isSimple := id in cache && cache[id] == SimpleSession;
      isSimple || calls.buildFallback ==>
        && r.cache == cache[id := SimpleSession]
        && (r.frames[1].kind == ResponseFrame <==> calls.secondCall.Ok?)
  {
    var thinking := Frame(Thinking, ThinkingText, id);
    var failed := WsStep(Connection(id, SaveMessage(store, id, AssistantRole, FallbackText)), cache,
                         [thinking, Frame(ErrorFrame, FallbackText, id)], true);
    var isSimple := id in cache && cache[id] == SimpleSession;
    if !isSimple && !calls.buildFallback then failed
    else
      var cache2 := cache[id := SimpleSession];
      match calls.secondCall
      case Ok(reply) =>
        WsStep(Connection(id, SaveExchange(store, id, message, reply.response)), cache2,
               [thinking, Frame(ResponseFrame, reply.response, id)], true)
      case Fail =>
        failed.(cache := cache2)
  }

  /** A run of the WebSocket loop over a script of inbound frames and their oracle answers. */
  datatype WsRunResult = WsRunResult(conn: Connection, cache: Cache, frames: seq<Frame>, handled: nat, open: bool)

  /**
   The loop over `script`: each frame is handled in turn until one ends
   the connection. Exactly two frames go out per handled message, in
   the thinking/terminal pattern.
   */
  function WsRun(conn: Connection, cache: Cache, useSimple: bool, script: seq<(Inbound, Calls)>): (r: WsRunResult)
    ensures |r.frames| == 2 * r.handled
    ensures r.handled <= |script|
    ensures r.open ==> r.handled == |script|
    ensures !r.open ==> r.handled < |script| && script[r.handled].0.JsonOther?
    ensures forall k :: 0 <= k < r.handled ==> !script[k].0.JsonOther?
    ensures Protocol(r.frames)
    decreases |script|
  {
    if |script| == 0 then WsRunResult(conn, cache, [], 0, true)
    else
      var step := WsHandle(conn, cache, useSimple, script[0].0, script[0].1);
      if !step.open then WsRunResult(step.conn, step.cache, [], 0, false)
      else
        var rest := WsRun(step.conn, step.cache, useSimple, script[1..]);
        ProtocolAppend(step.frames, rest.frames);
        WsRunResult(rest.conn, rest.cache, step.frames + rest.frames, rest.handled + 1, rest.open)
  }

  lemma ExchangeIsProtocol(frames: seq<Frame>)
    requires |frames| == 2 && frames[0].kind == Thinking && frames[1].kind != Thinking
    requires frames[0].conversationId == frames[1].conversationId
    ensures Protocol(frames)
  {
  }

  lemma ProtocolAppend(a: seq<Frame>, b: seq<Frame>)
    requires |a| == 2 && Protocol(a) && Protocol(b)
    ensures Protocol(a + b)
  {
  }

  /** Every message of the script is plain text whose first call is answered. */
  predicate AllAnswered(script: seq<(Inbound, Calls)>) {
    forall k :: 0 <= k < |script| ==> script[k].0.PlainText? && script[k].1.firstCall.Ok?
  }

  /** The turns a run of answered plain-text messages should leave: each user turn followed by its reply. */
  function Exchanges(script: seq<(Inbound, Calls)>): seq<Message>
    requires AllAnswered(script)
  {
    if |script| == 0 then []
    else [Message(UserRole, script[0].0.raw), Message(AssistantRole, script[0].1.firstCall.reply.response)]
         + Exchanges(script[1..])
  }

  /** The store after saving each answered message and its reply under `id`, in order. */
  function SaveExchanges(store: Store, id: string, script: seq<(Inbound, Calls)>): Store
    requires AllAnswered(script)
    decreases |script|
  {
    if |script| == 0 then store
    else SaveExchanges(SaveExchange(store, id, script[0].0.raw, script[0].1.firstCall.reply.response), id, script[1..])
  }

  /** The frames a run of answered plain-text messages should send: thinking, then the reply, per message. */
  function AnsweredFrames(script: seq<(Inbound, Calls)>, id: string): seq<Frame>
    requires AllAnswered(script)
  {
    if |script| == 0 then []
    else [Frame(Thinking, ThinkingText, id), Frame(ResponseFrame, script[0].1.firstCall.reply.response, id)]
         + AnsweredFrames(script[1..], id)
  }

  /**
   The loop over answered plain-text messages on a cached conversation:
   the connection stays open on its id, keeps its store across messages
   and the cache as it was, and sends the reference frames.
   */
  lemma {:induction false} CachedRun(conn: Connection, cache: Cache, useSimple: bool, script: seq<(Inbound, Calls)>)
    requires conn.conversationId in cache && AllAnswered(script)
    ensures var r := WsRun(conn, cache, useSimple, script);
      && r.open && r.cache == cache
      && r.conn == Connection(conn.conversationId, SaveExchanges(conn.store, conn.conversationId, script))
      && r.frames == AnsweredFrames(script, conn.conversationId)
    decreases |script|
  {
    if |script| > 0 {
      var id := conn.conversationId;
      var raw, calls := script[0].0.raw, script[0].1;
      assert script[0] == (PlainText(raw), calls);
      AnsweredStep(conn, cache, useSimple, raw, calls);
      var next := Connection(id, SaveExchange(conn.store, id, raw, calls.firstCall.reply.response));
      var tail := script[1..];
      AllAnsweredTail(script);
      CachedRun(next, cache, useSimple, tail);
      WsRunStep(conn, cache, useSimple, script);
    }
  }

  /**
   One connection keeps the process-wide cache from message to message:
   on a cached conversation whose session answers every plain-text
   message, the cache is left as it was, the connection stays open on
   that id, and each reply goes out in its own response frame.
   */
  lemma CachedConversationAnswers(conn: Connection, cache: Cache, useSimple: bool, script: seq<(Inbound, Calls)>)
    requires conn.conversationId in cache && AllAnswered(script)
    ensures var r := WsRun(conn, cache, useSimple, script);
      var id := conn.conversationId;
      && r.open && r.cache == cache && r.conn.conversationId == id
      && (forall k :: 0 <= k < |script| ==>
            r.frames[2 * k + 1] == Frame(ResponseFrame, script[k].1.firstCall.reply.response, id))
  {
    CachedRun(conn, cache, useSimple, script);
    AnsweredFramesAt(script, conn.conversationId);
  }

  /**
   One connection keeps its store from message to message: on a cached
   conversation whose session answers every plain-text message, the
   history gains every user turn followed by its reply, in order, and no
   other conversation changes.
   */
  lemma CachedConversationAccumulates(conn: Connection, cache: Cache, useSimple: bool, script: seq<(Inbound, Calls)>)
    requires conn.conversationId in cache && AllAnswered(script)
    ensures var r := WsRun(conn, cache, useSimple, script);
      var id := conn.conversationId;
      && GetMessages(r.conn.store, id) == GetMessages(conn.store, id) + Exchanges(script)
      && (forall other :: other != id ==> GetMessages(r.conn.store, other) == GetMessages(conn.store, other))
  {
    CachedRun(conn, cache, useSimple, script);
    SaveExchangesHistory(conn.store, conn.conversationId, script);
  }

  /**
   A session built by the first message serves the rest of the
   connection: once the first plain-text message creates the session for
   a new id and is answered, every later answered message on that id
   finds it in the cache the first one left, reuses the store the first
   one filled, and is answered in turn.
   */
  lemma BuiltSessionServesTheRest(conn: Connection, cache: Cache, useSimple: bool, raw: string, calls: Calls,
                                  script: seq<(Inbound, Calls)>)
    requires conn.conversationId !in cache && calls.buildPrimary && calls.firstCall.Ok? && AllAnswered(script)
    ensures var id := conn.conversationId;
      var reply := calls.firstCall.reply.response;
      var r := WsRun(conn, cache, useSimple, [(PlainText(raw), calls)] + script);
      && r.open && r.cache == cache[id := PrimaryKind(useSimple)]
      && r.conn == Connection(id, SaveExchanges(SaveExchange(conn.store, id, raw, reply), id, script))
      && r.frames == [Frame(Thinking, ThinkingText, id), Frame(ResponseFrame, reply, id)] + AnsweredFrames(script, id)
  {
    var id := conn.conversationId;
    var full := [(PlainText(raw), calls)] + script;
    assert full[0] == (PlainText(raw), calls) && full[1..] == script;
    var cache1 := cache[id := PrimaryKind(useSimple)];
    assert ParseInbound(id, PlainText(raw)) == Some((raw, id));
    assert LookupOrCreate(cache, id, useSimple, calls.buildPrimary) == Some(cache1);
    assert WsHandle(conn, cache, useSimple, PlainText(raw), calls) == WsAsk(conn.store, cache1, raw, id, calls);
    CachedRun(Connection(id, SaveExchange(conn.store, id, raw, calls.firstCall.reply.response)), cache1, useSimple, script);
    WsRunStep(conn, cache, useSimple, full);
  }

  /** The connection's store is threaded through the loop: no message removes or rewrites any earlier turn. */
  lemma {:induction false} WsRunStoreGrows(conn: Connection, cache: Cache, useSimple: bool, script: seq<(Inbound, Calls)>)
    ensures forall k :: GetMessages(conn.store, k) <= GetMessages(WsRun(conn, cache, useSimple, script).conn.store, k)
    decreases |script|
  {
    if |script| > 0 {
      var step := WsHandle(conn, cache, useSimple, script[0].0, script[0].1);
      if step.open {
        var (message, id) := ParseInbound(conn.conversationId, script[0].0).value;
        WsAnswerExtends(conn.store, cache, useSimple, message, id, script[0].1);
        WsRunStoreGrows(step.conn, step.cache, useSimple, script[1..]);
        WsRunStep(conn, cache, useSimple, script);
        var last := WsRun(conn, cache, useSimple, script).conn.store;
        forall k ensures GetMessages(conn.store, k) <= GetMessages(last, k) {
          PrefixTransitive(GetMessages(conn.store, k), GetMessages(step.conn.store, k), GetMessages(last, k));
        }
      }
    }
  }

  /** The loop threads the process-wide cache: no id leaves it, and a switch to `SimpleChat` is never undone. */
  lemma {:induction false} WsRunCacheGrows(conn: Connection, cache: Cache, useSimple: bool, script: seq<(Inbound, Calls)>)
    ensures var r := WsRun(conn, cache, useSimple, script);
      && cache.Keys <= r.cache.Keys
      && (forall k :: k in cache && cache[k] == SimpleSession ==> r.cache[k] == SimpleSession)
    decreases |script|
  {
    if |script| > 0 {
      var step := WsHandle(conn, cache, useSimple, script[0].0, script[0].1);
      if step.open {
        var (message, id) := ParseInbound(conn.conversationId, script[0].0).value;
        AnswerKeepsSimple(conn.store, cache, useSimple, message, id, script[0].1);
        WsRunCacheGrows(step.conn, step.cache, useSimple, script[1..]);
        WsRunStep(conn, cache, useSimple, script);
      }
    }
  }

  /**
   Whatever the first `j` messages leave behind, the later messages keep:
   every cached id stays cached, every `SimpleChat` switch stays, and
   every history the first `j` messages produced is a prefix of the
   final one.
   */
  lemma WsRunKeepsEarlierState(conn: Connection, cache: Cache, useSimple: bool, script: seq<(Inbound, Calls)>, j: nat)
    requires j <= |script|
    ensures var early := WsRun(conn, cache, useSimple, script[..j]);
      var r := WsRun(conn, cache, useSimple, script);
      && early.cache.Keys <= r.cache.Keys
      && (forall k :: k in early.cache && early.cache[k] == SimpleSession ==> r.cache[k] == SimpleSession)
      && (forall k :: GetMessages(early.conn.store, k) <= GetMessages(r.conn.store, k))
  {
    EarlierStateKept(conn, cache, useSimple, script, j);
  }

  /** What a later state keeps of an earlier one: cached ids, `SimpleChat` switches and history prefixes. */
  ghost predicate StateKept(cache: Cache, store: Store, cache1: Cache, store1: Store) {
    && cache.Keys <= cache1.Keys
    && (forall k :: k in cache && cache[k] == SimpleSession ==> cache1[k] == SimpleSession)
    && (forall k :: GetMessages(store, k) <= GetMessages(store1, k))
  }

  lemma {:induction false} EarlierStateKept(conn: Connection, cache: Cache, useSimple: bool,
                                            script: seq<(Inbound, Calls)>, j: nat)
    requires j <= |script|
    ensures var early := WsRun(conn, cache, useSimple, script[..j]);
      var r := WsRun(conn, cache, useSimple, script);
      StateKept(early.cache, early.conn.store, r.cache, r.conn.store)
    decreases j
  {
    if j == 0 {
      NothingHandledKept(conn, cache, useSimple, script);
    } else if !WsHandle(conn, cache, useSimple, script[0].0, script[0].1).open {
      FirstEndsKept(conn, cache, useSimple, script, j);
    } else {
      var step := WsHandle(conn, cache, useSimple, script[0].0, script[0].1);
      EarlierStateKept(step.conn, step.cache, useSimple, script[1..], j - 1);
      FirstContinuesKept(conn, cache, useSimple, script, j);
    }
  }

  /** If the first message ends the connection, the prefix run and the whole run are the same. */
  lemma FirstEndsKept(conn: Connection, cache: Cache, useSimple: bool, script: seq<(Inbound, Calls)>, j: nat)
    requires 0 < j <= |script| && !WsHandle(conn, cache, useSimple, script[0].0, script[0].1).open
    ensures var early := WsRun(conn, cache, useSimple, script[..j]);
      var r := WsRun(conn, cache, useSimple, script);
      StateKept(early.cache, early.conn.store, r.cache, r.conn.store)
  {
    WsRunSharedFirst(conn, cache, useSimple, script, j);
    var r := WsRun(conn, cache, useSimple, script);
    StateKeptReflexive(r.cache, r.conn.store);
  }

  /** If the first message leaves the connection open, what the rest keeps the whole run keeps. */
  lemma FirstContinuesKept(conn: Connection, cache: Cache, useSimple: bool, script: seq<(Inbound, Calls)>, j: nat)
    requires 0 < j <= |script|
    requires var step := WsHandle(conn, cache, useSimple, script[0].0, script[0].1);
      && step.open
      && var earlyRest := WsRun(step.conn, step.cache, useSimple, script[1..][..j - 1]);
         var rest := WsRun(step.conn, step.cache, useSimple, script[1..]);
         StateKept(earlyRest.cache, earlyRest.conn.store, rest.cache, rest.conn.store)
    ensures var early := WsRun(conn, cache, useSimple, script[..j]);
      var r := WsRun(conn, cache, useSimple, script);
      StateKept(early.cache, early.conn.store, r.cache, r.conn.store)
  {
    var step := WsHandle(conn, cache, useSimple, script[0].0, script[0].1);
    WsRunSharedFirst(conn, cache, useSimple, script, j);
    KeptAfterFirst(WsRun(conn, cache, useSimple, script[..j]), WsRun(conn, cache, useSimple, script),
                   WsRun(step.conn, step.cache, useSimple, script[1..][..j - 1]),
                   WsRun(step.conn, step.cache, useSimple, script[1..]));
  }

  /** Before any message, the state is the initial one, which the whole run keeps. */
  lemma NothingHandledKept(conn: Connection, cache: Cache, useSimple: bool, script: seq<(Inbound, Calls)>)
    ensures var r := WsRun(conn, cache, useSimple, script);
      var early := WsRun(conn, cache, useSimple, script[..0]);
      StateKept(early.cache, early.conn.store, r.cache, r.conn.store)
  {
    assert script[..0] == [];
    assert WsRun(conn, cache, useSimple, []) == WsRunResult(conn, cache, [], 0, true);
    WsRunCacheGrows(conn, cache, useSimple, script);
    WsRunStoreGrows(conn, cache, useSimple, script);
  }

  /** What the rest of a run keeps is kept by the run when both start with the same step. */
  lemma KeptAfterFirst(early: WsRunResult, r: WsRunResult, earlyRest: WsRunResult, rest: WsRunResult)
    requires StateKept(earlyRest.cache, earlyRest.conn.store, rest.cache, rest.conn.store)
    requires early.conn == earlyRest.conn && early.cache == earlyRest.cache
    requires r.conn == rest.conn && r.cache == rest.cache
    ensures StateKept(early.cache, early.conn.store, r.cache, r.conn.store)
  {
  }

  lemma StateKeptReflexive(cache: Cache, store: Store)
    ensures StateKept(cache, store, cache, store)
  {
    forall k ensures GetMessages(store, k) <= GetMessages(store, k) {
      assert GetMessages(store, k)[..|GetMessages(store, k)|] == GetMessages(store, k);
    }
  }

  /**
   The run over the first `j > 0` messages and the whole run share their
   first step; if it ends the connection, both runs stop there.
   */
  lemma WsRunSharedFirst(conn: Connection, cache: Cache, useSimple: bool, script: seq<(Inbound, Calls)>, j: nat)
    requires 0 < j <= |script|
    ensures var step := WsHandle(conn, cache, useSimple, script[0].0, script[0].1);
      var early := WsRun(conn, cache, useSimple, script[..j]);
      var r := WsRun(conn, cache, useSimple, script);
      && (!step.open ==> early == r)
      && (step.open ==>
            var earlyRest := WsRun(step.conn, step.cache, useSimple, script[1..][..j - 1]);
            var rest := WsRun(step.conn, step.cache, useSimple, script[1..]);
            && early.conn == earlyRest.conn && early.cache == earlyRest.cache
            && r.conn == rest.conn && r.cache == rest.cache)
  {
    var prefix := script[..j];
    assert prefix[0] == script[0] && prefix[1..] == script[1..][..j - 1];
    var step := WsHandle(conn, cache, useSimple, script[0].0, script[0].1);
    if step.open {
      WsRunStep(conn, cache, useSimple, prefix);
      WsRunStep(conn, cache, useSimple, script);
    }
  }

  lemma PrefixTransitive(a: seq<Message>, b: seq<Message>, c: seq<Message>)
    requires a <= b && b <= c
    ensures a <= c
  {
    assert c[..|a|] == b[..|a|];
  }

  /** One answered message keeps every cached id and every `SimpleChat` switch. */
  lemma AnswerKeepsSimple(store: Store, cache: Cache, useSimple: bool, message: string, id: string, calls: Calls)
    ensures var r := WsAnswer(store, cache, useSimple, message, id, calls);
      && cache.Keys <= r.cache.Keys
      && (forall k :: k in cache && cache[k] == SimpleSession ==> r.cache[k] == SimpleSession)
  {
    if id in cache {
      assert WsAnswer(store, cache, useSimple, message, id, calls) == WsAsk(store, cache, message, id, calls);
    }
  }

  /** The reference frames put the k-th reply at position `2k + 1`, and number two per message. */
  lemma {:induction false} AnsweredFramesAt(script: seq<(Inbound, Calls)>, id: string)
    requires AllAnswered(script)
    ensures |AnsweredFrames(script, id)| == 2 * |script|
    ensures forall k :: 0 <= k < |script| ==>
      AnsweredFrames(script, id)[2 * k + 1] == Frame(ResponseFrame, script[k].1.firstCall.reply.response, id)
    decreases |script|
  {
    if |script| > 0 {
      var tail := script[1..];
      AllAnsweredTail(script);
      AnsweredFramesAt(tail, id);
      var head := [Frame(Thinking, ThinkingText, id), Frame(ResponseFrame, script[0].1.firstCall.reply.response, id)];
      var rest := AnsweredFrames(tail, id);
      forall k | 0 < k < |script|
        ensures AnsweredFrames(script, id)[2 * k + 1] == Frame(ResponseFrame, script[k].1.firstCall.reply.response, id)
      {
        assert script[k] == tail[k - 1];
        SecondOfPairAfter(head, rest, k);
      }
    }
  }

  /** Saving the exchanges appends exactly their turns to `id` and leaves every other id alone. */
  lemma SaveExchangesHistory(store: Store, id: string, script: seq<(Inbound, Calls)>)
    requires AllAnswered(script)
    ensures GetMessages(SaveExchanges(store, id, script), id) == GetMessages(store, id) + Exchanges(script)
    ensures forall other :: other != id ==>
      GetMessages(SaveExchanges(store, id, script), other) == GetMessages(store, other)
  {
    SaveExchangesAppend(store, id, script);
    forall other | other != id
      ensures GetMessages(SaveExchanges(store, id, script), other) == GetMessages(store, other)
    {
      SaveExchangesElsewhere(store, id, script, other);
    }
  }

  lemma AppendAssoc(a: seq<Message>, b: seq<Message>, c: seq<Message>)
    ensures (a + b) + c == a + (b + c)
  {
  }

  /** The tail of an answered script is answered. */
  lemma AllAnsweredTail(script: seq<(Inbound, Calls)>)
    requires |script| > 0 && AllAnswered(script)
    ensures AllAnswered(script[1..])
  {
    assert forall k :: 0 <= k < |script[1..]| ==> script[1..][k] == script[k + 1];
  }

  lemma {:induction false} SaveExchangesAppend(store: Store, id: string, script: seq<(Inbound, Calls)>)
    requires AllAnswered(script)
    ensures GetMessages(SaveExchanges(store, id, script), id) == GetMessages(store, id) + Exchanges(script)
    decreases |script|
  {
    if |script| > 0 {
      AllAnsweredTail(script);
      var raw, reply := script[0].0.raw, script[0].1.firstCall.reply.response;
      var pair := [Message(UserRole, raw), Message(AssistantRole, reply)];
      var once := SaveExchange(store, id, raw, reply);
      calc {
        GetMessages(SaveExchanges(store, id, script), id);
        GetMessages(SaveExchanges(once, id, script[1..]), id);
        { SaveExchangesAppend(once, id, script[1..]); }
        GetMessages(once, id) + Exchanges(script[1..]);
        (GetMessages(store, id) + pair) + Exchanges(script[1..]);
        { AppendAssoc(GetMessages(store, id), pair, Exchanges(script[1..])); }
        GetMessages(store, id) + (pair + Exchanges(script[1..]));
        GetMessages(store, id) + Exchanges(script);
      }
    }
  }

  lemma {:induction false} SaveExchangesElsewhere(store: Store, id: string, script: seq<(Inbound, Calls)>, other: string)
    requires AllAnswered(script) && other != id
    ensures GetMessages(SaveExchanges(store, id, script), other) == GetMessages(store, other)
    decreases |script|
  {
    if |script| > 0 {
      AllAnsweredTail(script);
      var once := SaveExchange(store, id, script[0].0.raw, script[0].1.firstCall.reply.response);
      assert GetMessages(once, other) == GetMessages(store, other);
      SaveExchangesElsewhere(once, id, script[1..], other);
    }
  }

  /** The loop's first iteration, when it leaves the connection open. */
  lemma WsRunStep(conn: Connection, cache: Cache, useSimple: bool, script: seq<(Inbound, Calls)>)
    requires |script| > 0 && WsHandle(conn, cache, useSimple, script[0].0, script[0].1).open
    ensures var step := WsHandle(conn, cache, useSimple, script[0].0, script[0].1);
      var rest := WsRun(step.conn, step.cache, useSimple, script[1..]);
      WsRun(conn, cache, useSimple, script)
        == WsRunResult(rest.conn, rest.cache, step.frames + rest.frames, rest.handled + 1, rest.open)
  {
  }

  /** One plain-text message on a cached conversation whose session answers it. */
  lemma AnsweredStep(conn: Connection, cache: Cache, useSimple: bool, raw: string, calls: Calls)
    requires conn.conversationId in cache && calls.firstCall.Ok?
    ensures var id := conn.conversationId;
      var step := WsHandle(conn, cache, useSimple, PlainText(raw), calls);
      && step.open && step.cache == cache
      && step.conn == Connection(id, SaveExchange(conn.store, id, raw, calls.firstCall.reply.response))
      && step.frames == [Frame(Thinking, ThinkingText, id), Frame(ResponseFrame, calls.firstCall.reply.response, id)]
  {
    var id := conn.conversationId;
    assert ParseInbound(id, PlainText(raw)) == Some((raw, id));
    assert LookupOrCreate(cache, id, useSimple, calls.buildPrimary) == Some(cache);
    assert WsHandle(conn, cache, useSimple, PlainText(raw), calls) == WsAsk(conn.store, cache, raw, id, calls);
  }

  /** Past a leading pair, the terminal frame of the k-th exchange is the (k-1)-th of the rest. */
  lemma SecondOfPairAfter(a: seq<Frame>, b: seq<Frame>, k: nat)
    requires |a| == 2 && 0 < k && 2 * k <= |b|
    ensures (a + b)[2 * k + 1] == b[2 * (k - 1) + 1]
  {
    var j := 2 * (k - 1) + 1;
    assert 2 * k + 1 == |a| + j;
  }

  /** Every frame of the run carries the given id. */
  ghost predicate AllFor(frames: seq<Frame>, id: string) {
    forall k :: 0 <= k < |frames| ==> frames[k].conversationId == id
  }

  /** Plain-text messages keep the connection's current id: every frame of their run carries it. */
  lemma {:induction false} PlainTextKeepsConversation(conn: Connection, cache: Cache, useSimple: bool, script: seq<(Inbound, Calls)>)
    requires forall k :: 0 <= k < |script| ==> script[k].0.PlainText?
    ensures var r := WsRun(conn, cache, useSimple, script);
      r.open && r.conn.conversationId == conn.conversationId && AllFor(r.frames, conn.conversationId)
    decreases |script|
  {
    if |script| > 0 {
      var id := conn.conversationId;
      var raw := script[0].0.raw;
      assert ParseInbound(id, script[0].0) == Some((raw, id));
      var step := WsHandle(conn, cache, useSimple, script[0].0, script[0].1);
      assert step == WsAnswer(conn.store, cache, useSimple, raw, id, script[0].1);
      assert step.open && step.conn.conversationId == id && AllFor(step.frames, id);
      PlainTextKeepsConversation(step.conn, step.cache, useSimple, script[1..]);
      var rest := WsRun(step.conn, step.cache, useSimple, script[1..]);
      assert WsRun(conn, cache, useSimple, script)
          == WsRunResult(rest.conn, rest.cache, step.frames + rest.frames, rest.handled + 1, rest.open);
      AllForAppend(step.frames, rest.frames, id);
    }
  }

  /** A JSON object naming a conversation switches the connection to it for the plain-text messages that follow. */
  lemma SwitchedIdSticks(conn: Connection, cache: Cache, useSimple: bool, fields: map<string, string>, calls: Calls,
                         script: seq<(Inbound, Calls)>)
    requires "conversation_id" in fields && fields["conversation_id"] != ""
    requires forall k :: 0 <= k < |script| ==> script[k].0.PlainText?
    ensures var r := WsRun(conn, cache, useSimple, [(JsonObject(fields), calls)] + script);
      r.open && r.conn.conversationId == fields["conversation_id"] && AllFor(r.frames, fields["conversation_id"])
  {
    var all := [(JsonObject(fields), calls)] + script;
    var id := fields["conversation_id"];
    assert all[0] == (JsonObject(fields), calls) && all[1..] == script;
    assert ParseInbound(conn.conversationId, JsonObject(fields)).value.1 == id;
    var step := WsHandle(conn, cache, useSimple, JsonObject(fields), calls);
    assert step.open && step.conn.conversationId == id && AllFor(step.frames, id);
    var rest := WsRun(step.conn, step.cache, useSimple, script);
    PlainTextKeepsConversation(step.conn, step.cache, useSimple, script);
    var r := WsRun(conn, cache, useSimple, all);
    assert r == WsRunResult(rest.conn, rest.cache, step.frames + rest.frames, rest.handled + 1, rest.open);
    AllForAppend(step.frames, rest.frames, id);
  }

  lemma AllForAppend(a: seq<Frame>, b: seq<Frame>, id: string)
    requires AllFor(a, id) && AllFor(b, id)
    ensures AllFor(a + b, id)
  {
  }

  /**
   The user turn is saved before the session is asked, and saved again
   when the retry succeeds: a failed first call followed by a successful
   retry leaves the user turn twice in the connection's store.
   */
  lemma UserTurnSavedTwiceOnRetry(conn: Connection, cache: Cache, useSimple: bool, message: string, calls: Calls)
    requires conn.conversationId in cache
    requires calls.firstCall.Fail? && calls.buildFallback && calls.secondCall.Ok?
    ensures var id := conn.conversationId;
      var r := WsHandle(conn, cache, useSimple, PlainText(message), calls);
      GetMessages(r.conn.store, id) == GetMessages(conn.store, id)
        + [Message(UserRole, message), Message(UserRole, message), Message(AssistantRole, calls.secondCall.reply.response)]
  {
    var id := conn.conversationId;
    var reply := calls.secondCall.reply.response;
    var user := Message(UserRole, message);
    var store1 := SaveMessage(conn.store, id, UserRole, message);
    var pair := [user, Message(AssistantRole, reply)];
    assert ParseInbound(id, PlainText(message)) == Some((message, id));
    assert LookupOrCreate(cache, id, useSimple, calls.buildPrimary) == Some(cache);
    calc {
      GetMessages(WsHandle(conn, cache, useSimple, PlainText(message), calls).conn.store, id);
      GetMessages(WsFallback(store1, cache, message, id, calls).conn.store, id);
      GetMessages(SaveExchange(store1, id, message, reply), id);
      GetMessages(store1, id) + pair;
      { SaveMessageAppends(conn.store, id, UserRole, message); }
      (GetMessages(conn.store, id) + [user]) + pair;
      { AppendAssoc(GetMessages(conn.store, id), [user], pair); }
      GetMessages(conn.store, id) + ([user] + pair);
    }
    ConsPair(user, user, Message(AssistantRole, reply));
  }

  lemma ConsPair(a: Message, b: Message, c: Message)
    ensures [a] + [b, c] == [a, b, c]
  {
  }

  /**
   When both constructors raise, only the fallback assistant turn is
   saved; the user turn is not.
   */
  lemma OnlyFallbackSavedWhenNoSessionBuilds(conn: Connection, cache: Cache, useSimple: bool, message: string, calls: Calls)
    requires conn.conversationId !in cache
    requires !calls.buildPrimary && !calls.buildFallback
    ensures var id := conn.conversationId;
      var r := WsHandle(conn, cache, useSimple, PlainText(message), calls);
      && GetMessages(r.conn.store, id) == GetMessages(conn.store, id) + [Message(AssistantRole, FallbackText)]
      && r.frames[1] == Frame(ErrorFrame, FallbackText, id)
      && r.cache == cache
  {
  }
}

=== FILE: chat_service.dfy ===
/**
 The conversation store: an in-memory map from conversation id to an
 append-only history. Each value is immutable here; `SaveMessage`
 returns the store after the save.
 */
module ChatService {
  import opened Base
  import opened Schemas

  type Store = map<string, ConversationHistory>

  /** A store as built by the service's constructor. */
  const EmptyStore: Store := map[]

  /** Every history is filed under its own conversation id. */
  ghost predicate WellKeyed(store: Store) {
    forall id :: id in store ==> store[id].conversationId == id
  }

  /**
   Save one message: create an empty history for an unseen id, then
   append `Message(role, content)` to it. No other conversation changes.
   */
  function SaveMessage(store: Store, conversationId: string, role: string, content: string): (r: Store)
    ensures r.Keys == store.Keys + {conversationId}
    ensures conversationId !in store ==>
      r[conversationId] == ConversationHistory(conversationId, [Message(role, content)])
    ensures conversationId in store ==>
      && r[conversationId].conversationId == store[conversationId].conversationId
      && r[conversationId].messages == store[conversationId].messages + [Message(role, content)]
    ensures forall id :: id in store && id != conversationId ==> r[id] == store[id]
    ensures WellKeyed(store) ==> WellKeyed(r)
  {
    var history := if conversationId in store then store[conversationId]
                   else ConversationHistory(conversationId, []);
    store[conversationId := history.(messages := history.messages + [Message(role, content)])]
  }

  /** `get_conversation_history`: the stored history, or `None` for an id never saved to. */
  function GetConversationHistory(store: Store, conversationId: string): (r: Option<ConversationHistory>)
    ensures r.None? <==> conversationId !in store
    ensures r.Some? ==> r.value == store[conversationId]
  {
    if conversationId in store then Some(store[conversationId]) else None
  }

  /** `get_messages`: the stored messages, or the empty list for an unknown id. */
  function GetMessages(store: Store, conversationId: string): (r: seq<Message>)
    ensures conversationId !in store ==> r == []
    ensures conversationId in store ==> r == store[conversationId].messages
  {
    match GetConversationHistory(store, conversationId)
    case None => []
    case Some(h) => h.messages
  }

  /** Save a message to the store as seen through `GetMessages`: exactly one message is appended. */
  lemma SaveMessageAppends(store: Store, conversationId: string, role: string, content: string)
    ensures GetMessages(SaveMessage(store, conversationId, role, content), conversationId)
         == GetMessages(store, conversationId) + [Message(role, content)]
    ensures forall id :: id != conversationId ==>
      GetMessages(SaveMessage(store, conversationId, role, content), id) == GetMessages(store, id)
  {
  }

  /** The saves of `messages`, one `save_message` call each, in order. */
  function SaveAll(store: Store, conversationId: string, messages: seq<Message>): Store
    decreases |messages|
  {
    if |messages| == 0 then store
    else SaveAll(SaveMessage(store, conversationId, messages[0].role, messages[0].content),
                 conversationId, messages[1..])
  }

  /** A run of saves appends its messages in call order and touches no other conversation. */
  lemma {:induction false} SaveAllAppends(store: Store, conversationId: string, messages: seq<Message>)
    ensures GetMessages(SaveAll(store, conversationId, messages), conversationId)
         == GetMessages(store, conversationId) + messages
    ensures forall id :: id != conversationId ==>
      GetMessages(SaveAll(store, conversationId, messages), id) == GetMessages(store, id)
    decreases |messages|
  {
    if |messages| > 0 {
      var m := messages[0];
      var next := SaveMessage(store, conversationId, m.role, m.content);
      SaveMessageAppends(store, conversationId, m.role, m.content);
      SaveAllAppends(next, conversationId, messages[1..]);
      assert SaveAll(store, conversationId, messages) == SaveAll(next, conversationId, messages[1..]);
      assert [m] + messages[1..] == messages;
      assert GetMessages(store, conversationId) + [m] + messages[1..] == GetMessages(store, conversationId) + messages;
    }
  }

  /** Starting from an empty store, n saves to one id leave exactly those n messages, in order. */
  lemma FreshHistoryHoldsExactlyTheSaves(conversationId: string, messages: seq<Message>)
    ensures GetMessages(SaveAll(EmptyStore, conversationId, messages), conversationId) == messages
    ensures |messages| > 0 ==>
      GetConversationHistory(SaveAll(EmptyStore, conversationId, messages), conversationId)
        == Some(ConversationHistory(conversationId, messages))
  {
    SaveAllAppends(EmptyStore, conversationId, messages);
    if |messages| > 0 {
      SaveAllKeeps(EmptyStore, conversationId, messages);
    }
  }

  /** A run of saves keeps every history filed under its own id and creates the saved-to id. */
  lemma {:induction false} SaveAllKeeps(store: Store, conversationId: string, messages: seq<Message>)
    requires WellKeyed(store)
    ensures WellKeyed(SaveAll(store, conversationId, messages))
    ensures |messages| > 0 ==> conversationId in SaveAll(store, conversationId, messages)
    decreases |messages|
  {
    if |messages| > 0 {
      var next := SaveMessage(store, conversationId, messages[0].role, messages[0].content);
      SaveAllKeeps(next, conversationId, messages[1..]);
      SaveAllKeepsKey(next, conversationId, messages[1..]);
    }
  }

  /** Saving never removes an id from the store. */
  lemma {:induction false} SaveAllKeepsKey(store: Store, conversationId: string, messages: seq<Message>)
    requires conversationId in store
    ensures conversationId in SaveAll(store, conversationId, messages)
    decreases |messages|
  {
    if |messages| > 0 {
      SaveAllKeepsKey(SaveMessage(store, conversationId, messages[0].role, messages[0].content),
                      conversationId, messages[1..]);
    }
  }
}

=== FILE: llm.dfy ===
/**
 Parameter resolution for the language-model client: the per-model
 configuration table, the `max_tokens` default, the API-key fallback and
 the key probe. The network request itself is an oracle.
 */
module Llm {
  import opened Base

  const DefaultModel: string := "deepseek-chat"
  const DefaultMaxTokens: nat := 1000
  const DefaultTemperature: real := 0.7

  /** Entries of the per-model configuration dictionary; an absent key is `None`. */
  datatype ModelConfig = ModelConfig(maxTokens: Option<nat>, defaultTemperature: Option<real>, supportsFunctions: Option<bool>)

  /** The `{}` a model without a table entry gets. */
  const EmptyConfig: ModelConfig := ModelConfig(None, None, None)

  /** `get_model_config(model_name)`: only `deepseek-chat` has an entry. */
  function GetModelConfig(modelName: string): (c: ModelConfig)
    ensures modelName == DefaultModel ==>
      c.maxTokens == Some(4096) && c.supportsFunctions == Some(true) && c.defaultTemperature == Some(0.7)
    ensures modelName != DefaultModel ==> c == EmptyConfig
  {
    if modelName == DefaultModel then ModelConfig(Some(4096), Some(0.7), Some(true)) else EmptyConfig
  }

  /** `model_config.get("max_tokens", 1000)`. */
  function ResolveMaxTokens(c: ModelConfig): nat {
    c.maxTokens.GetOr(DefaultMaxTokens)
  }

  /** The token bound a client for `modelName` gets: 4096 for `deepseek-chat`, 1000 for any other name. */
  lemma MaxTokensByModel(modelName: string)
    ensures ResolveMaxTokens(GetModelConfig(modelName)) == (if modelName == DefaultModel then 4096 else 1000)
  {
  }

  /** An API key as the caller may pass it: a plain `str` or a pydantic `SecretStr`. */
  datatype Credential = PlainKey(text: string) | SecretKey(secret: string)

  /**
   Python truthiness of a resolved key: `None` is false and a `SecretStr`
   is false exactly when its secret is empty (it defines `__len__`); a
   plain `str` likewise.
   */
  predicate Truthy(k: Option<Credential>) {
    match k
    case None => false
    case Some(PlainKey(s)) => s != ""
    case Some(SecretKey(s)) => s != ""
  }

  /**
   `(SecretStr(api_key) if isinstance(api_key, str) else api_key) or config.api_key`:
   a plain key is wrapped as a secret; a missing or empty key gives way
   to the configured key, which stays a plain string (or `None`).
   */
  function ResolveApiKey(given: Option<Credential>, configured: Option<string>): (r: Option<Credential>)
    ensures given.Some? && given.value.PlainKey? && given.value.text != "" ==>
      r == Some(SecretKey(given.value.text))
    ensures given.Some? && given.value.SecretKey? && given.value.secret != "" ==> r == given
    ensures !Truthy(given) ==> r == (if configured.Some? then Some(PlainKey(configured.value)) else None)
    ensures Truthy(given) ==> r.Some? && r.value.SecretKey?
  {
    var wrapped := match given
      case Some(PlainKey(s)) => Some(SecretKey(s))
      case _ => given;
    if Truthy(wrapped) then wrapped
    else match configured
      case Some(s) => Some(PlainKey(s))
      case None => None
  }

  /** The GET request `check_api_key` sends. */
  datatype ProbeRequest = ProbeRequest(url: string, authorization: string)

  /** What the probe yields: a response status, or an exception. */
  datatype ProbeOutcome = Status(code: int) | Raised

  /** The text interpolated into the header: the secret, the plain string, or Python's `None`. */
  function KeyText(key: Option<Credential>): string {
    match key
    case None => "None"
    case Some(PlainKey(s)) => s
    case Some(SecretKey(s)) => s
  }

  /** `GET {base_url}/models` with `Authorization: Bearer {key}`. */
  function ProbeFor(key: Option<Credential>, baseUrl: string): ProbeRequest
  {
    ProbeRequest(baseUrl + "/models", "Bearer " + KeyText(key))
  }

  /**
   `check_api_key(api_key, base_url)` with the network as `probe`: true
   exactly when the probe answers status 200; an exception yields false.
   */
  function CheckApiKey(key: Option<Credential>, baseUrl: string, probe: ProbeRequest -> ProbeOutcome): (ok: bool)
    ensures ok <==> probe(ProbeRequest(baseUrl + "/models", "Bearer " + KeyText(key))) == Status(200)
    ensures probe(ProbeRequest(baseUrl + "/models", "Bearer " + KeyText(key))) == Raised ==> !ok
  {
    match probe(ProbeFor(key, baseUrl))
    case Status(code) => code == 200
    case Raised => false
  }

  /** Configuration values `create_llm` reads: the environment's key and base URL. */
  datatype LlmSettings = LlmSettings(apiKey: Option<string>, baseUrl: string)

  /** The arguments handed to the client constructor. */
  datatype ClientParams = ClientParams(model: string, temperature: real, maxTokens: nat, apiKey: Option<Credential>, baseUrl: string)

  /** What `create_llm` produces: the client arguments and whether it logged the invalid-key warning. */
  datatype CreatedLlm = CreatedLlm(client: ClientParams, warned: bool)

  /**
   `create_llm(model_name, temperature, api_key)`: the model name and
   temperature pass through, the token bound comes from the table with
   default 1000, the key is resolved with the configured fallback, the
   base URL is the configured one, and the warning is logged exactly when
   the probe of the resolved key fails.
   */
  function CreateLlm(modelName: string, temperature: real, apiKey: Option<Credential>,
                     settings: LlmSettings, probe: ProbeRequest -> ProbeOutcome): (r: CreatedLlm)
    ensures r.client.model == modelName && r.client.temperature == temperature
    ensures r.client.baseUrl == settings.baseUrl
    ensures r.client.maxTokens == (if modelName == DefaultModel then 4096 else 1000)
    ensures r.client.apiKey == ResolveApiKey(apiKey, settings.apiKey)
    ensures r.warned <==> probe(ProbeRequest(settings.baseUrl + "/models",
                                            "Bearer " + KeyText(ResolveApiKey(apiKey, settings.apiKey)))) != Status(200)
  {
    var config := GetModelConfig(modelName);
    var key := ResolveApiKey(apiKey, settings.apiKey);
    var valid := CheckApiKey(key, settings.baseUrl, probe);
    CreatedLlm(ClientParams(modelName, temperature, ResolveMaxTokens(config), key, settings.baseUrl), !valid)
  }

  /** Both agents build their client as `create_llm(temperature=0.7)`: deepseek-chat with 4096 tokens. */
  lemma SessionClientParameters(settings: LlmSettings, probe: ProbeRequest -> ProbeOutcome)
    ensures var c := CreateLlm(DefaultModel, DefaultTemperature, None, settings, probe).client;
      c.model == "deepseek-chat" && c.maxTokens == 4096 && c.temperature == 0.7
      && c.apiKey == (if settings.apiKey.Some? then Some(PlainKey(settings.apiKey.value)) else None)
  {
  }
}

=== FILE: schemas.dfy ===
/**
 Shapes of the request, response and history records exchanged by the
 chat API. They carry no behaviour of their own.
 */
module Schemas {
  import opened Base

  const UserRole: string := "user"
  const AssistantRole: string := "assistant"

  /** One turn of a conversation. */
  datatype Message = Message(role: string, content: string)

  /** All turns of one conversation, oldest first. */
  datatype ConversationHistory = ConversationHistory(conversationId: string, messages: seq<Message>)

  /**
   One intermediate reasoning step of the agent: the action it chose and
   what the tool answered. Only its presence and order matter here.
   */
  datatype Step = Step(action: string, observation: string)

  /** Body of `POST /chat/message`. */
  datatype ChatRequest = ChatRequest(message: string, conversationId: Option<string>)

  /** Reply of `POST /chat/message`; `thoughts` is `None` when absent. */
  datatype ChatResponse = ChatResponse(response: string, conversationId: string, thoughts: Option<seq<Step>>)
}

=== FILE: server.dfy ===
/**
 The two HTTP endpoints wired together over successive requests.

 As written, the store dependency builds a fresh, empty store for every
 request, so what one `POST /chat/message` saves is gone before any
 `GET /chat/history/{id}` runs. `AsWritten*` models that wiring; the
 `Shared*` members model the evidently intended one, where one store
 lives as long as the session cache.
 */
module Server {
  import opened Base
  import opened Schemas
  import opened ChatService
  import opened ChatApi

  /** A posted message's response and the server state that follows. */
  datatype Posted<S> = Posted(response: ChatResponse, server: S)

  // ---------------------------------------------------------------------
  // As written: a fresh store per request

  /** Process-wide state as written: only the session cache outlives a request. */
  datatype AsWrittenServer = AsWrittenServer(cache: Cache, useSimple: bool)

  /** `POST /chat/message` with the per-request store: the cache is kept, the store is dropped. */
  function PostAsWritten(server: AsWrittenServer, request: ChatRequest, oracles: HttpOracles): (p: Posted<AsWrittenServer>)
    ensures p.response == ChatMessage(server.cache, server.useSimple, EmptyStore, request, oracles).response
    ensures p.server.cache == ChatMessage(server.cache, server.useSimple, EmptyStore, request, oracles).cache
    ensures p.server.useSimple == server.useSimple
  {
    var d := ChatMessage(server.cache, server.useSimple, EmptyStore, request, oracles);
    Posted(d.response, server.(cache := d.cache))
  }

  /** `GET /chat/history/{id}` with the per-request store. */
  function HistoryAsWritten(server: AsWrittenServer, id: string): (r: HistoryReply)
    ensures r == NotFound404
  {
    ChatHistory(EmptyStore, id)
  }

  /** As written, the history of a conversation just posted to is not found. */
  lemma PostedHistoryLostAsWritten(server: AsWrittenServer, request: ChatRequest, oracles: HttpOracles)
    ensures var p := PostAsWritten(server, request, oracles);
      HistoryAsWritten(p.server, p.response.conversationId) == NotFound404
  {
  }

  /** Posting "你好" without an id and then asking for that id's history gives 404. */
  lemma GreetingRoundTripAsWritten(oracles: HttpOracles)
    ensures var p := PostAsWritten(AsWrittenServer(map[], false), ChatRequest("你好", None), oracles);
      && p.response.conversationId == oracles.freshId
      && HistoryAsWritten(p.server, p.response.conversationId).NotFound404?
  {
  }

  // ---------------------------------------------------------------------
  // Intended: one store shared by all requests

  /** Process-wide state with the store kept alongside the session cache. */
  datatype SharedServer = SharedServer(cache: Cache, useSimple: bool, store: Store)

  /** What the server holds at start-up. */
  function InitialServer(useSimple: bool): (s: SharedServer)
    ensures s.store == EmptyStore && s.cache == map[] && s.useSimple == useSimple
    ensures WellKeyed(s.store)
  {
    SharedServer(map[], useSimple, EmptyStore)
  }

  /** `POST /chat/message` against the shared store. */
  function PostShared(server: SharedServer, request: ChatRequest, oracles: HttpOracles): (p: Posted<SharedServer>)
    ensures WellKeyed(server.store) ==> WellKeyed(p.server.store)
    ensures p.server.store.Keys == server.store.Keys + {p.response.conversationId}
    ensures forall k :: k in server.store && k != p.response.conversationId ==> p.server.store[k] == server.store[k]
    ensures p.response == ChatMessage(server.cache, server.useSimple, server.store, request, oracles).response
    ensures p.server.cache == ChatMessage(server.cache, server.useSimple, server.store, request, oracles).cache
    ensures p.server.useSimple == server.useSimple
    ensures GetMessages(p.server.store, p.response.conversationId)
         == GetMessages(server.store, p.response.conversationId)
            + [Message(UserRole, request.message), Message(AssistantRole, p.response.response)]
  {
    var d := ChatMessage(server.cache, server.useSimple, server.store, request, oracles);
    Posted(d.response, SharedServer(d.cache, server.useSimple, d.store))
  }

  /** `GET /chat/history/{id}` against the shared store. */
  function HistoryShared(server: SharedServer, id: string): (r: HistoryReply)
    ensures r.NotFound404? <==> id !in server.store
  {
    ChatHistory(server.store, id)
  }

  /**
   With a shared store, the history of a conversation just posted to is
   found under its id and ends with the user turn and the answer.
   */
  lemma PostedHistoryFoundShared(server: SharedServer, request: ChatRequest, oracles: HttpOracles)
    requires WellKeyed(server.store)
    ensures var p := PostShared(server, request, oracles);
      var h := HistoryShared(p.server, p.response.conversationId);
      && h.Found?
      && h.history.conversationId == p.response.conversationId
      && |h.history.messages| >= 2
      && h.history.messages[|h.history.messages| - 2..]
         == [Message(UserRole, request.message), Message(AssistantRole, p.response.response)]
  {
  }

  /** Posting "你好" without an id and then asking for that id's history gives at least two messages. */
  lemma GreetingRoundTripShared(useSimple: bool, oracles: HttpOracles)
    ensures var p := PostShared(InitialServer(useSimple), ChatRequest("你好", None), oracles);
      var h := HistoryShared(p.server, p.response.conversationId);
      && p.response.conversationId == oracles.freshId
      && h.Found? && |h.history.messages| == 2
  {
  }
}

=== FILE: text.dfy ===
/**
 Text operations the chat backend relies on, restricted to what the
 model needs: ASCII lower-casing (Python's `str.lower`), substring
 membership (Python's `p in s`), `sep.join(parts)` and `s.split(sep)`.
 */
module Text {

  /** Lower-case one character; only `A`..`Z` are affected. */
  function LowerChar(c: char): (r: char)
    ensures 'A' <= c <= 'Z' ==> 'a' <= r <= 'z'
    ensures !('A' <= c <= 'Z') ==> r == c
  {
    if 'A' <= c <= 'Z' then (c as int + 32) as char else c
  }

  /** `s.lower()` for ASCII letters; every other character is kept. */
  function Lower(s: string): (r: string)
    ensures |r| == |s|
    ensures forall i :: 0 <= i < |s| ==> r[i] == LowerChar(s[i])
  {
    seq(|s|, i requires 0 <= i < |s| => LowerChar(s[i]))
  }

  /** Declarative substring relation: `p` occurs in `s` at some offset. */
  ghost predicate OccursIn(p: string, s: string) {
    exists i :: 0 <= i <= |s| && p <= s[i..]
  }

  /** Executable `p in s`: `p` is a prefix of `s` or of one of its suffixes. */
  predicate Contains(s: string, p: string)
    decreases |s|
  {
    p <= s || (|s| > 0 && Contains(s[1..], p))
  }

  /** `Contains` is exactly the substring relation, in both directions. */
  lemma {:induction false} ContainsIsSubstring(s: string, p: string)
    ensures Contains(s, p) <==> OccursIn(p, s)
    decreases |s|
  {
    assert s[0..] == s;
    if |s| > 0 && !(p <= s) {
      ContainsIsSubstring(s[1..], p);
      if Contains(s[1..], p) {
        var i :| 0 <= i <= |s[1..]| && p <= s[1..][i..];
        assert s[1..][i..] == s[i + 1..];
      }
      assert forall i :: 1 <= i <= |s| ==> s[1..][i - 1..] == s[i..];
    }
  }

  /** The empty string occurs in every string (Python: `"" in s` is true). */
  lemma EmptyContained(s: string)
    ensures Contains(s, "")
  {
  }

  /** `sep.join(parts)`: the parts with `sep` between neighbours, none at the end. */
  function Join(parts: seq<string>, sep: string): string
  {
    if |parts| == 0 then ""
    else if |parts| == 1 then parts[0]
    else parts[0] + sep + Join(parts[1..], sep)
  }

  /** Position of the first `d` in `s`, which must occur. */
  function IndexOf(s: string, d: char): (i: nat)
    requires d in s
    ensures i < |s| && s[i] == d && d !in s[..i]
  {
    if s[0] == d then 0 else IndexOf(s[1..], d) + 1
  }

  /** `s.split(d)` for a one-character separator: never empty, and no part holds the separator. */
  function Split(s: string, d: char): (r: seq<string>)
    ensures |r| >= 1
    ensures forall k :: 0 <= k < |r| ==> d !in r[k]
    decreases |s|
  {
    if d !in s then [s]
    else
      var i := IndexOf(s, d);
      [s[..i]] + Split(s[i + 1..], d)
  }

  /** Splitting a joined non-empty list of separator-free parts gives the parts back. */
  lemma {:induction false} SplitJoin(parts: seq<string>, d: char)
    requires |parts| >= 1
    requires forall k :: 0 <= k < |parts| ==> d !in parts[k]
    ensures Split(Join(parts, [d]), d) == parts
    decreases |parts|
  {
    if |parts| == 1 {
      assert Join(parts, [d]) == parts[0];
    } else {
      var a := parts[0];
      var rest := Join(parts[1..], [d]);
      var s := a + [d] + rest;
      assert Join(parts, [d]) == s;
      assert s[|a|] == d;
      assert d in s;
      IndexOfAfterFreePrefix(a, d, rest);
      assert s[..|a|] == a;
      assert s[|a| + 1..] == rest;
      SplitJoin(parts[1..], d);
      assert Split(s, d) == [a] + Split(rest, d);
    }
  }

  /** In `a + [d] + t` with `d` absent from `a`, the first `d` is right after `a`. */
  lemma {:induction false} IndexOfAfterFreePrefix(a: string, d: char, t: string)
    requires d !in a
    ensures d in a + [d] + t && IndexOf(a + [d] + t, d) == |a|
  {
    var s := a + [d] + t;
    assert s[|a|] == d;
  }

  /** Joining a head onto a non-empty list puts one separator between them. */
  lemma JoinCons(head: string, tail: seq<string>, sep: string)
    requires |tail| >= 1
    ensures Join([head] + tail, sep) == head + sep + Join(tail, sep)
  {
    assert ([head] + tail)[0] == head;
    assert ([head] + tail)[1..] == tail;
  }

  /** Cutting a sequence around one position and gluing it back gives the sequence. */
  lemma Reassemble(s: string, i: nat)
    requires i < |s|
    ensures s[..i] + [s[i]] + s[i + 1..] == s
  {
  }

  /** Joining the pieces of a split restores the string. */
  lemma {:induction false} JoinSplit(s: string, d: char)
    ensures Join(Split(s, d), [d]) == s
    decreases |s|
  {
    if d in s {
      var i := IndexOf(s, d);
      var tail := Split(s[i + 1..], d);
      calc {
        Join(Split(s, d), [d]);
        Join([s[..i]] + tail, [d]);
        { JoinCons(s[..i], tail, [d]); }
        s[..i] + [d] + Join(tail, [d]);
        { JoinSplit(s[i + 1..], d); }
        s[..i] + [d] + s[i + 1..];
        { Reassemble(s, i); }
        s;
      }
    }
  }
}

=== FILE: tools.dfy ===
/**
 The two tools the agent may call: the clock formatter and the
 keyword search over a fixed four-entry knowledge base, plus the tool
 list handed to the agent.
 */
module Tools {
  import opened Base
  import opened Text

  // ---------------------------------------------------------------------
  // Knowledge base search

  datatype Entry = Entry(key: string, value: string)

  /** The knowledge base, in the order its dictionary literal lists it. */
  const KnowledgeBase: seq<Entry> := [
    Entry("chatverse", "ChatVerse是一个基于Langchain、" + "FastAPI和DeepSeek构建的智能聊天机器人平台。"),
    Entry("langchain", "LangChain是一个用于构建LLM应用的框架，" + "提供了丰富的组件和工具。"),
    Entry("fastapi", "FastAPI是一个现代、快速、高性能的Web框架，" + "用于构建API。"),
    Entry("deepseek", "DeepSeek是一个强大的语言模型，" + "提供自然语言处理能力。")
  ]

  /** `query.lower() in key.lower()`. */
  predicate Matches(e: Entry, query: string) {
    Contains(Lower(e.key), Lower(query))
  }

  /** The entries of `table` that match `query`, keeping table order. */
  function Hits(table: seq<Entry>, query: string): seq<Entry>
    decreases |table|
  {
    if |table| == 0 then []
    else (if Matches(table[0], query) then [table[0]] else []) + Hits(table[1..], query)
  }

  /** `a` lists some of the elements of `b`, in the order `b` lists them. */
  ghost predicate SubsequenceOf<T>(a: seq<T>, b: seq<T>)
    decreases |b|
  {
    |a| == 0 || (|b| > 0 && ((a[0] == b[0] && SubsequenceOf(a[1..], b[1..])) || SubsequenceOf(a, b[1..])))
  }

  /**
   The hits are exactly the matching entries of the table, and they
   appear in table order.
   */
  lemma {:induction false} HitsAreTheMatchesInOrder(table: seq<Entry>, query: string)
    ensures forall e :: e in Hits(table, query) <==> e in table && Matches(e, query)
    ensures SubsequenceOf(Hits(table, query), table)
    decreases |table|
  {
    if |table| > 0 {
      HitsAreTheMatchesInOrder(table[1..], query);
      assert table == [table[0]] + table[1..];
      var h := Hits(table, query);
      if Matches(table[0], query) {
        assert h[1..] == Hits(table[1..], query);
      } else {
        assert h == Hits(table[1..], query);
      }
    }
  }

  /** Only the lower-cased query decides which entries match: the search is case-insensitive. */
  lemma {:induction false} HitsIgnoreQueryCase(table: seq<Entry>, q1: string, q2: string)
    requires Lower(q1) == Lower(q2)
    ensures Hits(table, q1) == Hits(table, q2)
    decreases |table|
  {
    if |table| > 0 {
      HitsIgnoreQueryCase(table[1..], q1, q2);
    }
  }

  /** One hit as a line of the answer: `key: value`. */
  function Render(e: Entry): string {
    e.key + ": " + e.value
  }

  function RenderAll(entries: seq<Entry>): (r: seq<string>)
    ensures |r| == |entries|
    ensures forall k :: 0 <= k < |entries| ==> r[k] == Render(entries[k])
    decreases |entries|
  {
    if |entries| == 0 then [] else [Render(entries[0])] + RenderAll(entries[1..])
  }

  /** The answer when nothing matches; it quotes the query as given, not lower-cased. */
  function NotFound(query: string): string {
    "未找到与'" + query + "'相关的信息。"
  }

  /** No line of the knowledge base contains a line break. */
  lemma KnowledgeBaseLinesAreSingleLines()
    ensures forall e :: e in KnowledgeBase ==> '\n' !in Render(e)
  {
    ChatverseLine();
    LangchainLine();
    FastapiLine();
    DeepseekLine();
  }

  lemma ChatverseLine()
    ensures '\n' !in Render(KnowledgeBase[0])
  {
    SingleLine("chatverse", "ChatVerse是一个基于Langchain、", "FastAPI和DeepSeek构建的智能聊天机器人平台。");
  }

  lemma LangchainLine()
    ensures '\n' !in Render(KnowledgeBase[1])
  {
    SingleLine("langchain", "LangChain是一个用于构建LLM应用的框架，", "提供了丰富的组件和工具。");
  }

  lemma FastapiLine()
    ensures '\n' !in Render(KnowledgeBase[2])
  {
    SingleLine("fastapi", "FastAPI是一个现代、快速、高性能的Web框架，", "用于构建API。");
  }

  lemma DeepseekLine()
    ensures '\n' !in Render(KnowledgeBase[3])
  {
    SingleLine("deepseek", "DeepSeek是一个强大的语言模型，", "提供自然语言处理能力。");
  }

  lemma SingleLine(key: string, v1: string, v2: string)
    requires '\n' !in key && '\n' !in v1 && '\n' !in v2
    ensures '\n' !in Render(Entry(key, v1 + v2))
  {
    assert Render(Entry(key, v1 + v2)) == key + ": " + v1 + v2;
  }

  /** The hits of the knowledge base, rendered, never contain a line break. */
  lemma RenderedHitsAreSingleLines(query: string)
    ensures forall k :: 0 <= k < |RenderAll(Hits(KnowledgeBase, query))| ==>
      '\n' !in RenderAll(Hits(KnowledgeBase, query))[k]
  {
    HitsAreTheMatchesInOrder(KnowledgeBase, query);
    KnowledgeBaseLinesAreSingleLines();
    var hits := Hits(KnowledgeBase, query);
    forall k | 0 <= k < |hits|
      ensures '\n' !in RenderAll(hits)[k]
    {
      assert hits[k] in hits;
    }
  }

  /**
   `search_knowledge_base(query)`. When something matches, the answer
   splits at line breaks into exactly the rendered hits, in table
   order; otherwise it is the not-found sentence. It is never empty.
   */
  function SearchKnowledgeBase(query: string): (r: string)
    ensures Hits(KnowledgeBase, query) != [] ==>
      Split(r, '\n') == RenderAll(Hits(KnowledgeBase, query))
    ensures Hits(KnowledgeBase, query) == [] ==> r == NotFound(query)
    ensures r != ""
  {
    var lines := RenderAll(Hits(KnowledgeBase, query));
    if |lines| > 0 then
      RenderedHitsAreSingleLines(query);
      SplitJoin(lines, '\n');
      assert |lines[0]| > 0 ==> |Join(lines, "\n")| > 0 by { JoinStartsWithFirst(lines, "\n"); }
      assert |lines[0]| > 0;
      Join(lines, "\n")
    else
      NotFound(query)
  }

  /** A join of a non-empty list starts with its first element. */
  lemma {:induction false} JoinStartsWithFirst(parts: seq<string>, sep: string)
    requires |parts| > 0
    ensures parts[0] <= Join(parts, sep)
  {
  }

  /** The loop of `search_knowledge_base`, collecting the rendered hits one entry at a time. */
  method SearchKnowledgeBaseLoop(query: string) returns (r: string)
    ensures r == SearchKnowledgeBase(query)
  {
    var needle := Lower(query);
    var results: seq<string> := [];
    var i := 0;
    while i < |KnowledgeBase|
      invariant i <= |KnowledgeBase|
      invariant results == RenderAll(Hits(KnowledgeBase[..i], query))
    {
      var e := KnowledgeBase[i];
      HitsSnoc(KnowledgeBase[..i], e, query);
      assert KnowledgeBase[..i + 1] == KnowledgeBase[..i] + [e];
      if Contains(Lower(e.key), needle) {
        RenderAllSnoc(Hits(KnowledgeBase[..i], query), e);
        results := results + [Render(e)];
      }
      i := i + 1;
    }
    assert KnowledgeBase[..i] == KnowledgeBase;
    if |results| > 0 {
      r := Join(results, "\n");
    } else {
      r := NotFound(query);
    }
  }

  lemma {:induction false} HitsSnoc(table: seq<Entry>, e: Entry, query: string)
    ensures Hits(table + [e], query) == Hits(table, query) + (if Matches(e, query) then [e] else [])
    decreases |table|
  {
    if |table| > 0 {
      assert (table + [e])[1..] == table[1..] + [e];
      HitsSnoc(table[1..], e, query);
    } else {
      assert (table + [e])[1..] == [];
    }
  }

  lemma {:induction false} RenderAllSnoc(entries: seq<Entry>, e: Entry)
    ensures RenderAll(entries + [e]) == RenderAll(entries) + [Render(e)]
  {
  }

  /** The empty query is contained in every key, so it lists all four entries. */
  lemma EmptyQueryListsEverything()
    ensures Hits(KnowledgeBase, "") == KnowledgeBase
    ensures Split(SearchKnowledgeBase(""), '\n') == RenderAll(KnowledgeBase)
  {
    HitsAreTheMatchesInOrder(KnowledgeBase, "");
    forall e | e in KnowledgeBase ensures Matches(e, "") {
      EmptyContained(Lower(e.key));
    }
    assert Hits(KnowledgeBase, "") == KnowledgeBase by {
      AllMatchKeepsTable(KnowledgeBase, "");
    }
  }

  lemma {:induction false} AllMatchKeepsTable(table: seq<Entry>, query: string)
    requires forall e :: e in table ==> Matches(e, query)
    ensures Hits(table, query) == table
    decreases |table|
  {
    if |table| > 0 {
      assert forall e :: e in table[1..] ==> e in table;
      AllMatchKeepsTable(table[1..], query);
    }
  }

  // ---------------------------------------------------------------------
  // Clock formatting

  /**
   A wall-clock reading, as `datetime.datetime.now()` would give it.
   Seconds run 0..59 as in Python's `datetime`.
   */
  datatype DateTime = DateTime(year: int, month: int, day: int, hour: int, minute: int, second: int)

  predicate IsLeapYear(y: int) {
    (y % 4 == 0 && y % 100 != 0) || y % 400 == 0
  }

  function DaysInMonth(y: int, m: int): int
    requires 1 <= m <= 12
  {
    if m == 2 then (if IsLeapYear(y) then 29 else 28)
    else if m == 4 || m == 6 || m == 9 || m == 11 then 30
    else 31
  }

  /** A valid reading whose year has four digits. */
  predicate ValidDateTime(t: DateTime) {
    && 1000 <= t.year <= 9999
    && 1 <= t.month <= 12
    && 1 <= t.day <= DaysInMonth(t.year, t.month)
    && 0 <= t.hour < 24
    && 0 <= t.minute < 60
    && 0 <= t.second < 60
  }

  const TimePrefix: string := "当前时间是: "

  function Pow10(n: nat): nat {
    if n == 0 then 1 else 10 * Pow10(n - 1)
  }

  function DigitChar(d: int): char
    requires 0 <= d < 10
  {
    ['0', '1', '2', '3', '4', '5', '6', '7', '8', '9'][d]
  }

  predicate IsDigit(c: char) {
    '0' <= c <= '9'
  }

  /** `n` in decimal, zero-padded on the left to exactly `width` digits. */
  function Digits(n: nat, width: nat): (r: string)
    ensures |r| == width
    ensures forall k :: 0 <= k < width ==> IsDigit(r[k])
  {
    if width == 0 then [] else Digits(n / 10, width - 1) + [DigitChar(n % 10)]
  }

  function DigitValue(c: char): nat
    requires IsDigit(c)
  {
    c as int - '0' as int
  }

  /** The number a string of decimal digits denotes. */
  function DigitsValue(s: string): nat
    requires forall k :: 0 <= k < |s| ==> IsDigit(s[k])
  {
    if |s| == 0 then 0 else 10 * DigitsValue(s[..|s| - 1]) + DigitValue(s[|s| - 1])
  }

  /** Reading back a padded number gives the number, when it fits in the width. */
  lemma {:induction false} DigitsRoundTrip(n: nat, width: nat)
    requires n < Pow10(width)
    ensures DigitsValue(Digits(n, width)) == n
  {
    if width > 0 {
      var s := Digits(n, width);
      assert s[..|s| - 1] == Digits(n / 10, width - 1);
      assert n / 10 < Pow10(width - 1);
      DigitsRoundTrip(n / 10, width - 1);
      DigitCharValue(n % 10);
      assert DigitsValue(s) == 10 * (n / 10) + n % 10;
    }
  }

  lemma DigitCharValue(d: int)
    requires 0 <= d < 10
    ensures IsDigit(DigitChar(d)) && DigitValue(DigitChar(d)) == d
  {
  }

  /** Every character is a decimal digit. */
  predicate AllDigits(s: string) {
    forall k :: 0 <= k < |s| ==> IsDigit(s[k])
  }

  lemma DigitsAvoid(s: string, c: char)
    requires AllDigits(s) && !IsDigit(c)
    ensures c !in s
  {
  }

  /** `strftime('%Y-%m-%d %H:%M:%S')`: date fields joined by `-`, time fields by `:`, the two by a space. */
  function FormatDateTime(t: DateTime): (r: string)
    requires ValidDateTime(t)
  {
    Join([Join([Digits(t.year, 4), Digits(t.month, 2), Digits(t.day, 2)], "-"),
          Join([Digits(t.hour, 2), Digits(t.minute, 2), Digits(t.second, 2)], ":")], " ")
  }

  /** Reads `n` back from a field of exactly `width` digits. */
  function ParseField(s: string, width: nat): Option<nat> {
    if |s| == width && AllDigits(s) then Some(DigitsValue(s)) else None
  }

  /** Reads three fields of the given widths from a `sep`-separated string. */
  function ParseTriple(s: string, sep: char, w0: nat, w1: nat, w2: nat): Option<(nat, nat, nat)> {
    var parts := Split(s, sep);
    if |parts| != 3 then None
    else
      match (ParseField(parts[0], w0), ParseField(parts[1], w1), ParseField(parts[2], w2))
      case (Some(a), Some(b), Some(c)) => Some((a, b, c))
      case _ => None
  }

  /** Reads a `YYYY-MM-DD HH:MM:SS` reading back. */
  function ParseDateTime(f: string): Option<DateTime> {
    var halves := Split(f, ' ');
    if |halves| != 2 then None
    else
      match (ParseTriple(halves[0], '-', 4, 2, 2), ParseTriple(halves[1], ':', 2, 2, 2))
      case (Some((y, mo, d)), Some((h, mi, sec))) => Some(DateTime(y, mo, d, h, mi, sec))
      case _ => None
  }

  /** Reads a clock reading back from the clock tool's answer. */
  function ParseCurrentTime(s: string): Option<DateTime> {
    if TimePrefix <= s then ParseDateTime(s[|TimePrefix|..]) else None
  }

  /**
   `get_current_time()` with the clock reading `now` as input: the fixed
   prefix followed by the nineteen-character zero-padded reading, which
   reads back as `now`.
   */
  function GetCurrentTime(now: DateTime): (r: string)
    requires ValidDateTime(now)
    ensures TimePrefix <= r && |r| == |TimePrefix| + 19
    ensures ParseCurrentTime(r) == Some(now)
  {
    var r := TimePrefix + FormatDateTime(now);
    FormatReadsBack(now);
    r
  }

  lemma {:induction false} TripleReadsBack(a: nat, b: nat, c: nat, w0: nat, w1: nat, w2: nat, sep: char)
    requires a < Pow10(w0) && b < Pow10(w1) && c < Pow10(w2)
    requires !IsDigit(sep)
    ensures ParseTriple(Join([Digits(a, w0), Digits(b, w1), Digits(c, w2)], [sep]), sep, w0, w1, w2)
         == Some((a, b, c))
  {
    var parts := [Digits(a, w0), Digits(b, w1), Digits(c, w2)];
    forall k | 0 <= k < 3 ensures sep !in parts[k] {
      DigitsAvoid(parts[k], sep);
    }
    SplitJoin(parts, sep);
    DigitsRoundTrip(a, w0);
    DigitsRoundTrip(b, w1);
    DigitsRoundTrip(c, w2);
  }

  lemma JoinThree(a: string, b: string, c: string, sep: string)
    ensures Join([a, b, c], sep) == a + sep + b + sep + c
  {
    assert [a, b, c][1..] == [b, c];
    assert [b, c][1..] == [c];
    assert Join([b, c], sep) == b + sep + c;
    assert Join([a, b, c], sep) == a + sep + (b + sep + c);
  }

  /** One half of a reading: its length, a character it never holds, and its read-back. */
  lemma TripleFacts(a: nat, b: nat, c: nat, w0: nat, w1: nat, w2: nat, sep: char, other: char)
    requires a < Pow10(w0) && b < Pow10(w1) && c < Pow10(w2)
    requires !IsDigit(sep) && !IsDigit(other) && other != sep
    ensures var half := Join([Digits(a, w0), Digits(b, w1), Digits(c, w2)], [sep]);
      |half| == w0 + w1 + w2 + 2 && other !in half
      && ParseTriple(half, sep, w0, w1, w2) == Some((a, b, c))
  {
    var x, y, z := Digits(a, w0), Digits(b, w1), Digits(c, w2);
    JoinThree(x, y, z, [sep]);
    DigitsAvoid(x, other);
    DigitsAvoid(y, other);
    DigitsAvoid(z, other);
    assert other !in x + [sep] + y + [sep] + z;
    TripleReadsBack(a, b, c, w0, w1, w2, sep);
  }

  /** The formatted reading is nineteen characters long and reads back as the reading. */
  lemma {:induction false} DateTimeReadsBack(t: DateTime)
    requires ValidDateTime(t)
    ensures |FormatDateTime(t)| == 19
    ensures ParseDateTime(FormatDateTime(t)) == Some(t)
  {
    var date := Join([Digits(t.year, 4), Digits(t.month, 2), Digits(t.day, 2)], "-");
    var time := Join([Digits(t.hour, 2), Digits(t.minute, 2), Digits(t.second, 2)], ":");
    TripleFacts(t.year, t.month, t.day, 4, 2, 2, '-', ' ');
    TripleFacts(t.hour, t.minute, t.second, 2, 2, 2, ':', ' ');
    SplitJoin([date, time], ' ');
    assert [date, time][1..] == [time];
    assert FormatDateTime(t) == Join([date, time], [' ']) == date + " " + time;
  }

  /** The clock tool's whole answer reads back as the reading it was given. */
  lemma FormatReadsBack(t: DateTime)
    requires ValidDateTime(t)
    ensures |FormatDateTime(t)| == 19
    ensures ParseCurrentTime(TimePrefix + FormatDateTime(t)) == Some(t)
  {
    DateTimeReadsBack(t);
    var s := TimePrefix + FormatDateTime(t);
    assert s[..|TimePrefix|] == TimePrefix;
    assert s[|TimePrefix|..] == FormatDateTime(t);
  }

  // ---------------------------------------------------------------------
  // Tool list

  datatype ToolKind = CurrentTimeTool | KnowledgeSearchTool

  /** A tool as registered with the agent: its name, description and the function behind it. */
  datatype Tool = Tool(name: string, description: string, kind: ToolKind)

  /**
   `create_agent_tools()`: exactly the clock tool and then the search
   tool, under distinct names, with the descriptions the agent's prompt
   lists them by.
   */
  function CreateAgentTools(): (r: seq<Tool>)
    ensures |r| == 2
    ensures r[0].name != r[1].name
    ensures r[0].name == "get_current_time" && r[0].description == "获取当前时间"
    ensures r[1].name == "search_knowledge_base" && r[1].description == "搜索知识库获取信息"
    ensures {r[0].name, r[1].name} == {"get_current_time", "search_knowledge_base"}
    ensures forall k :: 0 <= k < |r| ==> (r[k].name == "get_current_time" <==> r[k].kind == CurrentTimeTool)
  {
    [ Tool("get_current_time", "获取当前时间", CurrentTimeTool),
      Tool("search_knowledge_base", "搜索知识库获取信息", KnowledgeSearchTool) ]
  }

  /** The first tool registered under `name`, if any. */
  function FindTool(tools: seq<Tool>, name: string): (r: Option<Tool>)
    ensures r.Some? ==> r.value in tools && r.value.name == name
    ensures r.None? ==> forall t :: t in tools ==> t.name != name
    decreases |tools|
  {
    if |tools| == 0 then None
    else if tools[0].name == name then Some(tools[0])
    else FindTool(tools[1..], name)
  }

  /** What a tool answers: the clock ignores its input, the search uses it as the query. */
  function InvokeTool(tool: Tool, input: string, now: DateTime): string
    requires ValidDateTime(now)
  {
    match tool.kind
    case CurrentTimeTool => GetCurrentTime(now)
    case KnowledgeSearchTool => SearchKnowledgeBase(input)
  }

  /** Each name of the tool list leads to the function it was registered with. */
  lemma ToolNamesReachTheirFunctions(input: string, now: DateTime)
    requires ValidDateTime(now)
    ensures FindTool(CreateAgentTools(), "get_current_time").Some?
    ensures InvokeTool(FindTool(CreateAgentTools(), "get_current_time").value, input, now) == GetCurrentTime(now)
    ensures FindTool(CreateAgentTools(), "search_knowledge_base").Some?
    ensures InvokeTool(FindTool(CreateAgentTools(), "search_knowledge_base").value, input, now)
         == SearchKnowledgeBase(input)
  {
  }
}
